=== FILE: README.md ===
# WCC Labs site logic in Dafny

A model of the deterministic logic behind the WCC Labs marketing site:

- the shared form rules of `src/utils/emailService.js`:
  - `validateField` and `validateForm`;
  - the outbound email that `sendViaWeb3Forms` builds and how it reads the provider's reply;
  - the analytics log of `trackContactForm`, capped at 50 entries;
  - the order of steps in `submitContactForm`.
- the hiring form of `src/components/sections/HireTalent.jsx`:
  - the validation effect that turns `(formData, touchedFields)` into `(fieldErrors, isFormValid)`;
  - the touched-map updates of `handleBlur` and `handleSubmit`;
  - the hiring payload, and the submit flow through the shared pipeline.
- `src/components/sections/Courses.jsx`:
  - `cleanTitle`, the file-name sanitiser of the syllabus download;
  - the feature preview of a course card;
  - the savings figure and the tab counts.
- `src/components/sections/Testimonials.jsx`:
  - the carousel index (next, previous, dots);
  - the preview grid.

Strings are `seq<char>`, one Unicode scalar value per element. `.length` is the sequence length. JavaScript instead counts UTF-16 code units, so the two differ for characters outside the Basic Multilingual Plane; "## Left out" lists the members whose contracts state a length bound or a cut; members built on them, such as `EmailService.SubmitContactForm` and `HireTalent.HireSubmit` through `validateForm`, inherit the difference. JavaScript's `\s` and `String.prototype.trim` share one whitespace set, `JsText.JsWhitespace`. That set is the WhiteSpace and LineTerminator code points of ECMA-262.

## Modules

| file | module | contents |
|---|---|---|
| `wrappers.dfy` | `Wrappers` | `Option` |
| `jstext.dfy` | `JsText` | whitespace, `trim` and its two halves (trimming the start, trimming the end; the site only calls `trim()`, and the halves describe what the trim of the hiring template keeps), character filters, `substring(0, n)`, decimal rendering, template joining |
| `validation.dfy` | `Validation` | `validateField` rules, `validateForm` |
| `email_service.dfy` | `EmailService` | the email request, the reply check, the capped log, `submitContactForm` |
| `hire_talent.dfy` | `HireTalent` | the hiring form's effect, touched map, payload and submit |
| `courses.dfy` | `Courses` | `cleanTitle`, feature preview, savings, tabs, the site's catalog |
| `testimonials.dfy` | `Testimonials` | the carousel index and the preview grid |

Some parts of the code are not modelled as code. Each becomes a parameter instead:

- **The HTTP exchange with the email provider.** It is modelled as `EmailService.SendOracle`. This records either what the provider answered (the `response.ok` flag, `success`, `message`) or that `fetch` or `response.json()` failed.
- **The clock readings and the user-agent tag.** They are modelled as opaque strings in `EmailService.Environment`:
  - the ISO timestamp;
  - the IST rendering of the submission date;
  - the last two words of `navigator.userAgent`.
- **The analytics log in `localStorage`.** It is modelled as a `seq<LogEntry>` that is passed in and returned.

The effect in `HireTalent.jsx` runs after every change of `formData` or `touchedFields`. By the time the submit button is clicked, `isFormValid` is therefore the effect's value for the current form and the touched map as it stood before the click. `HireTalent.HireSubmit` gates on `ValidateHireForm(form, touched)` with that touched map.

## Model

| member | source | states |
|---|---|---|
| JsText.Trim | src/utils/emailService.js:10 | `value.trim()` is empty exactly when the value is all whitespace; otherwise neither end of the result is whitespace |
| JsText.TrimOfPadded | src/utils/emailService.js:74-101 | trimming any whitespace padding off a core whose ends are not whitespace returns exactly that core, which is why the `.trim()` of a template keeps every character of the form's text |
| JsText.TrimStartSplit | src/utils/emailService.js:10 | the first half of `trim()` removes exactly a leading whitespace run, and what remains does not start with whitespace |
| JsText.TrimEndSplit | src/components/sections/HireTalent.jsx:160-161 | the second half of `trim()` removes exactly a trailing whitespace run, and what remains does not end with whitespace; at the end of the hiring template this is all the trim takes from the requirements |
| JsText.TrimIdempotent | src/utils/emailService.js:11 | trimming a trimmed value changes nothing |
| JsText.TrimKeepsCore | src/utils/emailService.js:32-33 | trimming never cuts into a stretch whose first and last characters are not whitespace |
| JsText.TrimWithinTrimEnd | src/components/sections/HireTalent.jsx:53 | trimming only the end keeps at least as many characters as the whole `trim()`, so requirements counted long by `trim().length` stay long inside the trimmed template |
| JsText.Filter | src/utils/emailService.js:25 | `replace(/[class]/g, '')` keeps exactly the characters outside the class, in order |
| JsText.FilterConcat | src/utils/emailService.js:25 | the filter works character by character: it distributes over concatenation |
| JsText.Take | src/components/sections/Testimonials.jsx:253 | `substring(0, n)` is the prefix of length min(n, length) |
| JsText.NatToDecimal | src/components/sections/Courses.jsx:1199 | the rendering of a count is a non-empty string of digits without a leading zero |
| JsText.DecimalRoundTrip | src/components/sections/Courses.jsx:1199 | reading the rendered count back gives the count |
| JsText.AlnumIsNotWhitespace | src/components/sections/Courses.jsx:682 | no ASCII letter or digit is in `\s` |
| Validation.ValidateName | src/utils/emailService.js:9-14 | the name rule: required when all whitespace; too short when under 2 trimmed characters; otherwise accepted exactly when every character of the untrimmed value is a letter, whitespace or '.' |
| Validation.ValidateEmail | src/utils/emailService.js:16-21 | the email rule: required when all whitespace; otherwise accepted exactly when the untrimmed value matches `^[^\s@]+@[^\s@]+\.[^\s@]+$`, stated by positions |
| Validation.ScanMatchesPattern | src/utils/emailService.js:18-19 | the left-to-right scan accepts exactly the strings the email pattern matches |
| Validation.FirstAt | src/utils/emailService.js:18 | the position of the first '@', the one the pattern's single '@' must be |
| Validation.ScanIsClassify | src/utils/emailService.js:18-19 | the scan's state after any input is the state its shape calls for: start, local part, '@', domain, trailing dot, accepted or rejected |
| Validation.ClassifyStep | src/utils/emailService.js:18-19 | reading one more character moves the shape exactly as the scan's step does |
| Validation.ClassifyStepBeforeAt | src/utils/emailService.js:18-19 | before any '@', reading a character other than '@' changes the shape exactly as the scan's step does |
| Validation.ClassifyStepAt | src/utils/emailService.js:18-19 | reading the first '@' changes the shape exactly as the scan's step does: to the '@' state after a non-empty, clean local part, and to rejection otherwise |
| Validation.ClassifyStepAfterAt | src/utils/emailService.js:18-19 | after the first '@', reading any character changes the shape exactly as the scan's step does |
| Validation.StepFromShapes | src/utils/emailService.js:18-19 | after the '@', the shape of the longer domain part is the scan's step from the shape of the shorter one |
| Validation.ClassifyAfterAt | src/utils/emailService.js:18-19 | an input holding '@' is classified by its local part before the first '@' and its domain part after it |
| Validation.ClassifyAfterAtAppend | src/utils/emailService.js:18-19 | appending after the first '@' keeps the local part and extends the domain part |
| Validation.DomainStep | src/utils/emailService.js:18-19 | the domain part's state after one more email character is the scan's step from its state before |
| Validation.FirstAtAppend | src/utils/emailService.js:18 | appending a character keeps an earlier first '@', and otherwise finds it at the new character or past the end |
| Validation.AllEmailCharsAppend | src/utils/emailService.js:18 | appending keeps the input free of whitespace and '@' exactly when the new character is one of those allowed |
| Validation.ValidatePhone | src/utils/emailService.js:23-28 | the phone rule: required when all whitespace; otherwise accepted exactly when every character is a digit or a stripped separator and there are 10 to 15 digits |
| Validation.CleanPhone | src/utils/emailService.js:25 | stripping never lengthens the value, leaves none of the stripped separators (the `\s` whitespace, '-', '(', ')', '+' and '='), and changes nothing when there are none |
| Validation.CleanPhoneAllDigits | src/utils/emailService.js:25-26 | the stripped number is all digits exactly when the raw value is digits and separators |
| Validation.CleanPhoneIsDigits | src/utils/emailService.js:25-26 | for a value of digits and separators, stripping the separators leaves exactly its digits |
| Validation.ValidateMessage | src/utils/emailService.js:30-35 | the message rule: required when all whitespace; too short under 10 trimmed characters; too long over 1000; 10 to 1000 inclusive are accepted |
| Validation.FieldNamed | src/utils/emailService.js:8-39 | the `switch` picks the rule whose key is the field name, and no rule for any other name |
| Validation.ValidateField | src/utils/emailService.js:7-40 | `validateField` applies the named field's rule and reports nothing for an unknown name |
| Validation.CollectErrors | src/utils/emailService.js:49-52 | the `forEach` leaves an entry for exactly the listed fields whose rule fails, holding the rule's error |
| Validation.ValidateForm | src/utils/emailService.js:45-58 | `validateForm` has an error for exactly the four canonical fields whose rule fails, carrying that rule's error; it has no other keys; it is valid exactly when there are no errors |
| Validation.ValidateFormUsesValidateField | src/utils/emailService.js:49-51 | each entry is what `validateField` reports for the field's own key |
| Validation.PassingFieldsLeaveNoErrors | src/utils/emailService.js:54-57 | a form whose four fields pass their rules is valid |
| Validation.FailingFieldIsReported | src/utils/emailService.js:49-52 | a field whose rule fails appears among the errors |
| EmailService.EmailRequestFor | src/utils/emailService.js:69-102 | the subject is "WCC Labs Contact: " followed by the course, or by 'General Inquiry' when there is none; the sender name and email are copied from the form; `.trim()` strips only the template's own padding |
| JsText.JoinStarts | src/utils/emailService.js:74-75 | the body starts with its heading's first character |
| JsText.JoinEnds | src/utils/emailService.js:100-101 | the body ends with the footer's last character |
| EmailService.InterpretReply | src/utils/emailService.js:119-131 | the send succeeds exactly when the status is ok and the body reports success; a failure carries the provider's message, or the fixed fallback when there is none |
| EmailService.AppendCapped | src/utils/emailService.js:141-152 | after one append the log's length is min(old + 1, 50), the new entry is last, and the entries before it are the newest of the old log in order |
| EmailService.AppendAllKeepsNewest | src/utils/emailService.js:149-152 | after any run of submissions the log is the newest 50 of the old log followed by the new entries |
| EmailService.NewestOfNewest | src/utils/emailService.js:150-151 | dropping down to 50 early or late gives the same log |
| EmailService.FiftyFirstSubmissionDropsFirst | src/utils/emailService.js:149-152 | after 51 submissions into an empty log, the first entry is gone and the 50 newest remain |
| EmailService.SubmitContactForm | src/utils/emailService.js:164-198 | an invalid form is rejected with 'Please fix the form errors and try again.' before any send and without a log entry; a valid form sends exactly one request and appends one entry whose `success` is the outcome; it resolves exactly when the provider succeeds; a resolved submit carries method 'Web3Forms', the success text and the provider's reply as details; every send failure rejects with the fixed message naming info@wcclabs.com |
| EmailService.InvalidFormIgnoresProvider | src/utils/emailService.js:174-178 | an invalid form's outcome does not depend on the provider, and nothing is sent |
| EmailService.ProviderMessageIsDiscarded | src/utils/emailService.js:190-197 | any two failed sends of the same form give the same rejection and the same log, so the provider's own message never reaches the caller |
| HireTalent.Label | src/components/sections/HireTalent.jsx:52 | the label is empty exactly when the key is, starts with the key's first letter upper-cased and is never shorter than the key; LabelRoundTrip gives its inverse |
| HireTalent.SpaceBeforeCapitals | src/components/sections/HireTalent.jsx:52 | inserting spaces never shortens the key |
| HireTalent.SpacesDropOut | src/components/sections/HireTalent.jsx:52 | removing the inserted spaces gives back a key without spaces |
| HireTalent.LabelRoundTrip | src/components/sections/HireTalent.jsx:52 | the label of a camelCase key reads back to the key, so different keys get different labels |
| HireTalent.SpaceBeforeCapitalsConcat | src/components/sections/HireTalent.jsx:52 | the global replace works piece by piece |
| HireTalent.NoCapitalsNoSpaces | src/components/sections/HireTalent.jsx:52 | a lower-case word gets no spaces |
| HireTalent.TwoWordLabel | src/components/sections/HireTalent.jsx:52 | a two-word camelCase key becomes the capitalised first word, a space, and the second word |
| HireTalent.RequiredLabels | src/components/sections/HireTalent.jsx:51-52 | the labels are "Company Name", "Job Title" and "Message" |
| HireTalent.CompanyLabel | src/components/sections/HireTalent.jsx:52 | `companyName` is labelled "Company Name" |
| HireTalent.JobTitleLabel | src/components/sections/HireTalent.jsx:52 | `jobTitle` is labelled "Job Title" |
| HireTalent.MessageLabel | src/components/sections/HireTalent.jsx:52 | `message` is labelled "Message" |
| HireTalent.SharedRulesAreValidateField | src/components/sections/HireTalent.jsx:47-50 | a touched email or phone gets `validateField` with its own key; a touched contact person gets `validateField('name', …)` |
| HireTalent.SharedChecks | src/components/sections/HireTalent.jsx:47-50 | each of those three fields passes exactly when its shared rule accepts it |
| HireTalent.CheckFields | src/components/sections/HireTalent.jsx:42-64 | the `forEach` gives errors only for listed, touched fields whose check fails, with the failing check's problem; `valid` is false once a touched field fails or an untouched one is blank |
| HireTalent.ValidateHireForm | src/components/sections/HireTalent.jsx:37-68 | `fieldErrors` has keys only for touched required fields, and for each of them exactly when its check fails; the form is valid exactly when all six required fields are non-blank, touched or not, and every touched one passes its check |
| HireTalent.AllFilledIff | src/components/sections/HireTalent.jsx:67 | `requiredFields.every(field => formData[field].trim())` holds exactly when no required field is blank |
| HireTalent.RequiredFieldListed | src/components/sections/HireTalent.jsx:38 | the effect's list holds each of the six required fields |
| HireTalent.AllRequiredFieldsListed | src/components/sections/HireTalent.jsx:38 | every required field is in the effect's list |
| HireTalent.TouchedFieldError | src/components/sections/HireTalent.jsx:47-55 | a blank value always fails; company name and job title fail exactly when blank; the message passes exactly when it has at least 20 trimmed characters |
| HireTalent.TouchedPassImpliesFilled | src/components/sections/HireTalent.jsx:47-55 | a required field that passes its check is not blank |
| HireTalent.BlankFieldIsRequired | src/components/sections/HireTalent.jsx:51-52 | a touched, blank company name, job title or message is reported missing |
| HireTalent.MessageLengthCheck | src/components/sections/HireTalent.jsx:53-54 | a non-blank message fails exactly when it has fewer than 20 trimmed characters, and then with the minimum-length text; there is no upper bound |
| HireTalent.HandleBlur | src/components/sections/HireTalent.jsx:116-122 | blurring marks that input touched and keeps every other entry |
| HireTalent.SubmitTouched | src/components/sections/HireTalent.jsx:128-131 | submit replaces the touched map with exactly the six required keys, all true |
| HireTalent.SummaryEnds | src/components/sections/HireTalent.jsx:150-159 | the composed summary starts with 'C' and ends with ':' |
| HireTalent.HiringPayload | src/components/sections/HireTalent.jsx:144-161 | name is the contact person; email and phone are copied; course is 'HIRING INQUIRY'; the message is the summary (company, contact, job title, optional fields or 'Not specified'), a line break and the requirements with only their trailing whitespace removed; blank requirements leave just the summary |
| HireTalent.PayloadMessage | src/components/sections/HireTalent.jsx:149-161 | what `.trim()` of the hiring template leaves, for blank and non-blank requirements |
| HireTalent.FilledPayloadMessage | src/components/sections/HireTalent.jsx:149-161 | for non-blank requirements, the trim keeps the summary and the requirements up to their last non-whitespace character |
| HireTalent.BlankPayloadMessage | src/components/sections/HireTalent.jsx:149-161 | for blank requirements, the trim leaves exactly the summary |
| HireTalent.HireSubmit | src/components/sections/HireTalent.jsx:124-191 | submit always touches all six fields; when the form is not valid it stops with 'Please fix all form errors before submitting' and sends nothing; otherwise it hands the hiring payload to `submitContactForm`, keeps its log and sends, and reports a resolved submit as delivered with the same delivery and a rejected one as failed with the same message |
| HireTalent.AllTouchedGate | src/components/sections/HireTalent.jsx:128-137 | once every field is touched, a valid form has every required field passing its check |
| HireTalent.PayloadValidIffMessage | src/utils/emailService.js:45-58 | a payload whose name, email and phone pass is valid exactly when its message passes |
| HireTalent.AllTouchedGapIsMessageLength | src/components/sections/HireTalent.jsx:144-164 | with every field touched and the gate open, the shared validator rejects the payload exactly when the composed message exceeds 1000 characters |
| HireTalent.PassingChecksGap | src/components/sections/HireTalent.jsx:144-164 | when name, email and phone pass the shared rules and the requirements are filled, the shared validator rejects the payload exactly when the composed message exceeds 1000 characters |
| HireTalent.PayloadMessageIsItsOwnTrim | src/components/sections/HireTalent.jsx:149-161 | the composed message of non-blank requirements is already trimmed and is longer than the shared 10-character minimum |
| HireTalent.RejectedPayloadFailsSubmit | src/components/sections/HireTalent.jsx:164-191 | a submit past the gate whose payload the shared validator rejects fails with 'Please fix the form errors and try again.', sends nothing and leaves the log alone |
| HireTalent.LongRequirementsPassGateButFailSubmit | src/components/sections/HireTalent.jsx:53-54 | requirements of 1000 or more trimmed characters pass the hiring gate but fail the submit with the generic validation text, and nothing is sent |
| HireTalent.UntouchedBadEmailPassesGate | src/components/sections/HireTalent.jsx:42-64 | an untouched, filled-in but malformed email leaves the form valid when the other fields pass, and the shared validator then rejects the payload |
| HireTalent.BadEmailRejectsPayload | src/utils/emailService.js:16-21 | a hiring payload whose email fails the shared email rule is rejected by `validateForm` |
| Courses.CollapseWhitespace | src/components/sections/Courses.jsx:682 | `.replace(/\s+/g, '_')` leaves no whitespace; it keeps a non-whitespace first character; it never puts two '_' in a row when the input had none; on the first pass's output it gives only letters, digits and '_' |
| Courses.CollapseKeepsText | src/components/sections/Courses.jsx:682 | with the '_' markers erased, the collapsed string is the input's non-whitespace characters in order |
| Courses.CleanTitle | src/components/sections/Courses.jsx:682 | a clean title holds only ASCII letters, digits and '_', never two '_' in a row |
| Courses.CleanTitleErasesToAlnum | src/components/sections/Courses.jsx:682 | erasing the '_' of a clean title gives exactly the ASCII letters and digits of the title, in order |
| Courses.TitleCharsThenText | src/components/sections/Courses.jsx:682 | the first pass followed by dropping whitespace keeps exactly the letters and digits |
| Courses.CleanTitleStep | src/components/sections/Courses.jsx:682 | a word, then whitespace mixed with dropped punctuation (as in "MERN Stack + Gen AI"), then the rest (empty, or starting with a letter or digit), cleans to the word, one '_' and the clean rest |
| Courses.FilterKeepsMembers | src/components/sections/Courses.jsx:682 | the first pass keeps only characters of the title |
| Courses.CollapseWords | src/components/sections/Courses.jsx:682 | a word followed by a whitespace run collapses to the word and one '_', also when the run ends the string |
| Courses.AlnumRunIsNotWhitespace | src/components/sections/Courses.jsx:682 | a run of letters and digits holds no whitespace |
| Courses.CollapsePrefix | src/components/sections/Courses.jsx:682 | characters in front that are not whitespace pass through the collapse unchanged |
| Courses.CollapseGap | src/components/sections/Courses.jsx:682 | a whitespace run becomes exactly one '_', whether a non-whitespace character follows or the run ends the string |
| Courses.CollapseCons | src/components/sections/Courses.jsx:682 | a leading character that is not whitespace is kept as it is |
| Courses.NoWhitespaceIsKept | src/components/sections/Courses.jsx:682 | a string of letters and digits is unchanged by the collapse |
| Courses.PreviewFeatures | src/components/sections/Courses.jsx:1190-1201 | the card lists the first min(4, n) features; it notes more features exactly when n > 4; listed plus noted is n |
| Courses.MoreFeaturesTextNamesCount | src/components/sections/Courses.jsx:1197-1201 | the number in "+N more features" reads back as the count of features not listed |
| Courses.Savings | src/components/sections/Courses.jsx:698 | the savings figure exists exactly when the list price is present and non-zero, and adding it to the current fee gives the list price |
| Courses.ListPriceIffSavings | src/components/sections/Courses.jsx:1210 | the card shows the struck-through list price exactly when the syllabus shows a saving |
| Courses.Tabs | src/components/sections/Courses.jsx:1069-1072 | there are two tabs with distinct ids, each naming a list of the catalog, and every key with a list is one of them |
| Courses.CoursesOf | src/components/sections/Courses.jsx:1137 | `courses[activeTab]` is a list exactly for 'popular' and 'trending', and it is one of the catalog's two lists |
| Courses.TabCountsMatchLists | src/components/sections/Courses.jsx:1069-1072 | every tab's count is the number of cards `courses[activeTab]` renders for that tab |
| Courses.SiteCatalogCards | src/components/sections/Courses.jsx:755-1066 | on the site's catalog both tabs count three; every card lists four features and notes two more; every saving is positive |
| Testimonials.JsRemainder | src/components/sections/Testimonials.jsx:66-72 | JavaScript's `%` agrees with the mathematical remainder on non-negative dividends and is never below -n |
| Testimonials.Next | src/components/sections/Testimonials.jsx:66-68 | next stays in [0, n) and moves to the following index, from the last back to the first |
| Testimonials.Prev | src/components/sections/Testimonials.jsx:70-72 | previous stays in [0, n) and moves to the preceding index, from the first to the last |
| Testimonials.PrevUndoesNext | src/components/sections/Testimonials.jsx:66-72 | previous after next, and next after previous, return to the same index |
| Testimonials.NextTimes | src/components/sections/Testimonials.jsx:66-68 | any number of next presses keeps the index in range |
| Testimonials.NextTimesWraps | src/components/sections/Testimonials.jsx:66-68 | within one round, k presses of next move k places, wrapping once past the last |
| Testimonials.FullRoundReturns | src/components/sections/Testimonials.jsx:66-68 | n presses of next return to the starting index |
| Testimonials.SelectDot | src/components/sections/Testimonials.jsx:187-190 | clicking a dot gives an index in range |
| Testimonials.ClickedDotIsActive | src/components/sections/Testimonials.jsx:187-193 | after clicking dot k, dot k is the only active dot |
| Testimonials.PreviewQuote | src/components/sections/Testimonials.jsx:253 | the quote is the first min(100, length) characters of the text followed by "...", which is added even when nothing was cut |
| Testimonials.Preview | src/components/sections/Testimonials.jsx:226-253 | the grid shows the first min(3, n) testimonials in order, each with its cut quote |
| Testimonials.SiteCarousel | src/components/sections/Testimonials.jsx:7-64 | on the site's five testimonials: previous on the first goes to the fifth; next on the fifth goes to the first; the grid shows three quotes, each cut to 100 characters plus the ellipsis |

## Left out

- The HTTP request, its JSON encoding and the access key of `sendViaWeb3Forms` are left out. What the exchange returns is the `SendOracle` parameter.
- `localStorage` reads and writes of `trackContactForm`, and its `try`/`catch`, are left out. A storage failure would leave the log unchanged; the model always appends.
- Console logging is left out.
- Date and locale formatting is left out. This covers the IST date, `toISOString` and price `toLocaleString`. Each is an opaque string or is not rendered.
- React scheduling is left out. This covers:
  - the `setTimeout` resets of the error message and the form;
  - the loading flag;
  - the success screen;
  - the timing of effects.
- `HireTalent.HireSubmit` models the value of `isFormValid` the click reads, as described above.
- `validateField` is called on `formData[field]`, which is always a string in the site's forms. The model's forms hold strings. A missing field would make `.trim()` throw, which is not modelled.
- The rest of `downloadSyllabus` is left out: the HTML template, the print window, the Blob download and the rest of the fallback text file. Only `cleanTitle` and the savings figure are modelled.
- Curricula, icons, ratings and student counts of the catalog are left out because they are display data. The site's catalog keeps titles, prices and features.
- Testimonials.Next / Testimonials.Prev: both require a non-empty list. With no testimonials, JavaScript's `% 0` gives NaN, and the site's list is a constant of five.
- Validation examples: the phone examples "+91-98765-43210" and "12345" and the title "MERN Stack + Gen AI" are not stated as separate lemmas. The general characterisations cover them:
  - `ValidatePhone` accepts digits and separators holding 10 to 15 digits;
  - `CleanTitleStep` turns a word, whitespace with dropped punctuation, and the rest into word + '_' + rest.
- Validation.ValidateName: the 2-character minimum counts Unicode scalar values, where `value.trim().length` counts UTF-16 code units. A name of one emoji outside the Basic Multilingual Plane is too short in the model, but the source goes on to the letter pattern.
- Validation.ValidateMessage: the 10- and 1000-character bounds count scalar values, not UTF-16 code units. Six U+1F600 characters are too short in the model, while the source counts 12 and accepts them. `Validation.ValidateField`, `Validation.CollectErrors` and `Validation.ValidateForm` use the name and message rules and inherit both differences.
- HireTalent.MessageLengthCheck: the 20-character minimum counts scalar values, not UTF-16 code units, for the same reason.
- HireTalent.AllTouchedGapIsMessageLength: the 1000-character threshold is in scalar values. With characters outside the Basic Multilingual Plane, the source reaches the bound with fewer characters.
- HireTalent.TouchedFieldError: the message's 20-character minimum counts scalar values, where `formData.message.trim().length` counts UTF-16 code units. Ten U+1F600 characters fail in the model with the minimum-length text, while the source counts 20 units and accepts them. `HireTalent.CheckFields` and `HireTalent.ValidateHireForm` use this check and inherit the difference.
- HireTalent.PassingChecksGap: the 1000-character bound of the composed message is in scalar values, where `message.length > 1000` counts UTF-16 code units. With characters outside the Basic Multilingual Plane, the source rejects a shorter message than the model does.
- JsText.Take: the prefix has min(n, length) scalar values, where `substring(0, n)` keeps n UTF-16 code units and can end in the middle of a surrogate pair.
- Testimonials.PreviewQuote: `substring(0, 100)` cuts after 100 UTF-16 code units and can split a surrogate pair. The model cuts after 100 scalar values. `Testimonials.Preview` shows these quotes and inherits the difference.
- Missing-field texts: `HireProblem.Text()` builds "<Label> is required" from the proved labels and the suffix " is required". Equalities with the full literal texts are not stated as lemmas.

## Provider errors

`sendViaWeb3Forms` throws the provider's `message` when the reply is not a success (`src/utils/emailService.js:122-124`). `submitContactForm` then replaces every send error with one fixed text naming info@wcclabs.com and the WhatsApp number (`src/utils/emailService.js:190-197`). `EmailService.ProviderMessageIsDiscarded` states that the provider's message cannot influence the rejection.

=== FILE: courses.dfy ===
/** The catalog logic of `src/components/sections/Courses.jsx`: the file-name
    sanitiser `cleanTitle` of the syllabus download, the feature preview of a course
    card, the savings figure, and the tab counts. */
module Courses {
  import opened Wrappers
  import opened JsText

  // ---------------------------------------------------------------- cleanTitle

  /** The characters the first pass keeps: `[a-zA-Z0-9\s]`. */
  predicate IsTitleChar(c: char) {
    IsAsciiAlnum(c) || IsJsWhitespace(c)
  }

  predicate IsNotWhitespace(c: char) {
    !IsJsWhitespace(c)
  }

  predicate IsNotUnderscore(c: char) {
    c != '_'
  }

  predicate NoUnderscore(s: string) {
    forall i | 0 <= i < |s| :: s[i] != '_'
  }

  /** No '_' is directly followed by another. */
  predicate NoDoubleUnderscore(s: string) {
    forall i | 0 <= i < |s| - 1 :: s[i] == '_' ==> s[i + 1] != '_'
  }

  /** `.replace(/\s+/g, '_')`: every maximal run of whitespace becomes one '_'; the other
      characters stay, in order. */
  function CollapseWhitespace(s: string): (r: string)
    ensures forall i | 0 <= i < |r| :: !IsJsWhitespace(r[i])
    ensures s != [] && !IsJsWhitespace(s[0]) ==> r != [] && r[0] == s[0]
    ensures NoUnderscore(s) ==> NoDoubleUnderscore(r)
    ensures (forall i | 0 <= i < |s| :: IsTitleChar(s[i])) ==>
              forall i | 0 <= i < |r| :: IsAsciiAlnum(r[i]) || r[i] == '_'
    decreases |s|
  {
    if s == [] then []
    else if IsJsWhitespace(s[0]) then
      var rest := TrimStart(s);
      assert NoUnderscore(s) ==> NoUnderscore(rest);
      ['_'] + CollapseWhitespace(rest)
    else
      assert NoUnderscore(s) ==> NoUnderscore(s[1..]);
      [s[0]] + CollapseWhitespace(s[1..])
  }

  /** Collapsing loses only whitespace: with the '_' markers erased, what remains is the
      input's non-whitespace characters in order. */
  lemma {:induction false} CollapseKeepsText(s: string)
    requires NoUnderscore(s)
    ensures Filter(IsNotUnderscore, CollapseWhitespace(s)) == Filter(IsNotWhitespace, s)
    decreases |s|
  {
    if s != [] {
      var r := CollapseWhitespace(s);
      if IsJsWhitespace(s[0]) {
        var rest := TrimStart(s);
        TrimStartSplit(s);
        var run := s[..|s| - |rest|];
        assert NoUnderscore(rest);
        CollapseKeepsText(rest);
        FilterConcat(IsNotWhitespace, run, rest);
        assert Filter(IsNotWhitespace, run) == [];
        FilterConcat(IsNotUnderscore, ['_'], CollapseWhitespace(rest));
      } else {
        assert NoUnderscore(s[1..]);
        CollapseKeepsText(s[1..]);
        FilterConcat(IsNotUnderscore, [s[0]], CollapseWhitespace(s[1..]));
      }
    }
  }

  /** `course.title.replace(/[^a-zA-Z0-9\s]/g, '').replace(/\s+/g, '_')`. The result is
      a safe file-name stem: ASCII letters, digits and '_' only, never two '_' in a
      row. */
  function CleanTitle(title: string): (r: string)
    ensures forall i | 0 <= i < |r| :: IsAsciiAlnum(r[i]) || r[i] == '_'
    ensures NoDoubleUnderscore(r)
  {
    var kept := Filter(IsTitleChar, title);
    assert NoUnderscore(kept) by {
      forall i | 0 <= i < |kept| ensures kept[i] != '_' {
        assert IsTitleChar(kept[i]);
      }
    }
    CollapseWhitespace(kept)
  }

  /** Erasing the '_' characters of a clean title gives exactly the ASCII letters and
      digits of the title, in order: nothing else survives and nothing is lost. */
  lemma CleanTitleErasesToAlnum(title: string)
    ensures Filter(IsNotUnderscore, CleanTitle(title)) == Filter(IsAsciiAlnum, title)
  {
    var kept := Filter(IsTitleChar, title);
    assert NoUnderscore(kept) by {
      forall i | 0 <= i < |kept| ensures kept[i] != '_' {
        assert IsTitleChar(kept[i]);
      }
    }
    CollapseKeepsText(kept);
    TitleCharsThenText(title);
  }

  /** Dropping the whitespace of the first pass's output leaves the letters and digits. */
  lemma {:induction false} TitleCharsThenText(s: string)
    ensures Filter(IsNotWhitespace, Filter(IsTitleChar, s)) == Filter(IsAsciiAlnum, s)
    decreases |s|
  {
    if s != [] {
      TitleCharsThenText(s[1..]);
      var tail := Filter(IsTitleChar, s[1..]);
      if IsAsciiAlnum(s[0]) {
        AlnumIsNotWhitespace(s[0]);
        assert Filter(IsTitleChar, s) == [s[0]] + tail;
        FilterConcat(IsNotWhitespace, [s[0]], tail);
      } else if IsJsWhitespace(s[0]) {
        assert Filter(IsTitleChar, s) == [s[0]] + tail;
        FilterConcat(IsNotWhitespace, [s[0]], tail);
      }
    }
  }

  /** A title that opens with a word followed by whitespace (perhaps mixed with dropped
      punctuation) cleans to the word, one '_', and the clean rest. */
  lemma CleanTitleStep(word: string, gap: string, rest: string)
    requires word != [] && forall i | 0 <= i < |word| :: IsAsciiAlnum(word[i])
    requires gap != [] && IsJsWhitespace(gap[0])
    requires forall i | 0 <= i < |gap| :: !IsAsciiAlnum(gap[i])
    requires rest == [] || IsAsciiAlnum(rest[0])
    ensures CleanTitle(word + gap + rest) == word + "_" + CleanTitle(rest)
  {
    var g := Filter(IsTitleChar, gap);
    var tail := Filter(IsTitleChar, rest);
    assert Filter(IsTitleChar, word + gap + rest) == word + g + tail by {
      FilterConcat(IsTitleChar, word + gap, rest);
      FilterConcat(IsTitleChar, word, gap);
      assert forall i | 0 <= i < |word| :: IsTitleChar(word[i]);
      assert Filter(IsTitleChar, word) == word;
    }
    assert g != [] by {
      assert gap == [gap[0]] + gap[1..];
      FilterConcat(IsTitleChar, [gap[0]], gap[1..]);
    }
    assert AllWhitespace(g) by {
      forall i | 0 <= i < |g| ensures IsJsWhitespace(g[i]) {
        assert IsTitleChar(g[i]);
        assert !IsAsciiAlnum(g[i]) by {
          FilterKeepsMembers(IsTitleChar, gap, g[i]);
        }
      }
    }
    assert tail == [] || !IsJsWhitespace(tail[0]) by {
      if rest != [] {
        assert rest == [rest[0]] + rest[1..];
        FilterConcat(IsTitleChar, [rest[0]], rest[1..]);
        AlnumIsNotWhitespace(rest[0]);
      }
    }
    CollapseWords(word, g, tail);
  }

  /** Filtering keeps only characters of its input. */
  lemma {:induction false} FilterKeepsMembers(keep: char -> bool, s: string, c: char)
    requires c in Filter(keep, s)
    ensures c in s
    decreases |s|
  {
    if s != [] && c != s[0] {
      FilterKeepsMembers(keep, s[1..], c);
    }
  }

  lemma CollapseWords(a: string, gap: string, b: string)
    requires b == [] || !IsJsWhitespace(b[0])
    requires forall i | 0 <= i < |a| :: IsAsciiAlnum(a[i])
    requires gap != [] && AllWhitespace(gap)
    ensures CollapseWhitespace(a + gap + b) == a + "_" + CollapseWhitespace(b)
  {
    assert CollapseWhitespace(a + gap + b) == a + CollapseWhitespace(gap + b) by {
      AlnumRunIsNotWhitespace(a);
      assert a + gap + b == a + (gap + b);
      CollapsePrefix(a, gap + b);
    }
    assert CollapseWhitespace(gap + b) == "_" + CollapseWhitespace(b) by {
      CollapseGap(gap, b);
    }
    ConcatAssoc(a, "_", CollapseWhitespace(b));
  }

  lemma AlnumRunIsNotWhitespace(a: string)
    requires forall i | 0 <= i < |a| :: IsAsciiAlnum(a[i])
    ensures forall i | 0 <= i < |a| :: !IsJsWhitespace(a[i])
  {
    forall i | 0 <= i < |a| ensures !IsJsWhitespace(a[i]) {
      AlnumIsNotWhitespace(a[i]);
    }
  }

  /** Characters in front that are not whitespace pass through the collapse unchanged. */
  lemma {:induction false} CollapsePrefix(a: string, t: string)
    requires forall i | 0 <= i < |a| :: !IsJsWhitespace(a[i])
    ensures CollapseWhitespace(a + t) == a + CollapseWhitespace(t)
    decreases |a|
  {
    if a == [] {
      assert a + t == t;
    } else {
      assert a + t == [a[0]] + (a[1..] + t);
      CollapseCons(a[0], a[1..] + t);
      assert forall i | 0 <= i < |a[1..]| :: a[1..][i] == a[i + 1];
      CollapsePrefix(a[1..], t);
      var c := CollapseWhitespace(t);
      assert [a[0]] + (a[1..] + c) == ([a[0]] + a[1..]) + c;
      assert a == [a[0]] + a[1..];
    }
  }

  /** A whitespace run before a non-whitespace character becomes one '_'. */
  lemma CollapseGap(gap: string, b: string)
    requires b == [] || !IsJsWhitespace(b[0])
    requires gap != [] && AllWhitespace(gap)
    ensures CollapseWhitespace(gap + b) == "_" + CollapseWhitespace(b)
  {
    var s := gap + b;
    assert IsJsWhitespace(s[0]);
    TrimStartPadded(gap, b);
  }

  /** A character that is not whitespace passes through the collapse unchanged. */
  lemma CollapseCons(c: char, t: string)
    requires !IsJsWhitespace(c)
    ensures CollapseWhitespace([c] + t) == [c] + CollapseWhitespace(t)
  {
    assert ([c] + t)[1..] == t;
  }

  /** A string of letters and digits has no whitespace to collapse. */
  lemma {:induction false} NoWhitespaceIsKept(s: string)
    requires forall i | 0 <= i < |s| :: IsAsciiAlnum(s[i])
    ensures CollapseWhitespace(s) == s
    decreases |s|
  {
    if s != [] {
      AlnumIsNotWhitespace(s[0]);
      NoWhitespaceIsKept(s[1..]);
    }
  }

  // ---------------------------------------------------------------- course cards

  /** A course as the card and the syllabus use it. `originalPrice` is absent for a
      course without a list price. */
  datatype Course = Course(title: string, originalPrice: Option<int>, currentPrice: int, features: seq<string>)

  const PreviewFeatureCount := 4

  /** The card's feature block: the features listed, and the number in the
      "+N more features" note when there is one. */
  datatype FeaturePreview = FeaturePreview(shown: seq<string>, more: Option<nat>)

  /** `features.slice(0, 4)` and `features.length > 4 && ... features.length - 4`. */
  function PreviewFeatures(features: seq<string>): (r: FeaturePreview)
    ensures |r.shown| == if |features| < PreviewFeatureCount then |features| else PreviewFeatureCount
    ensures r.shown == features[..|r.shown|]
    ensures r.more.Some? <==> |features| > PreviewFeatureCount
    ensures |r.shown| + r.more.GetOr(0) == |features|
  {
    var shown := if |features| <= PreviewFeatureCount then features else features[..PreviewFeatureCount];
    if |features| > PreviewFeatureCount then FeaturePreview(shown, Some(|features| - PreviewFeatureCount))
    else FeaturePreview(shown, None)
  }

  /** The text of the note. */
  function MoreFeaturesText(count: nat): string {
    "+" + NatToDecimal(count) + " more features"
  }

  /** The note's number reads back as the count of features not listed. */
  lemma MoreFeaturesTextNamesCount(features: seq<string>)
    requires |features| > PreviewFeatureCount
    ensures var text := MoreFeaturesText(PreviewFeatures(features).more.value);
            var digits := text[1..|text| - |" more features"|];
            (forall i | 0 <= i < |digits| :: IsAsciiDigit(digits[i])) &&
            |PreviewFeatures(features).shown| + DecimalValue(digits) == |features|
  {
    var k := |features| - PreviewFeatureCount;
    var text := MoreFeaturesText(k);
    assert text[1..|text| - |" more features"|] == NatToDecimal(k);
    DecimalRoundTrip(k);
  }

  /** `course.originalPrice ? ... (originalPrice - currentPrice) : ''`: the savings
      figure exists exactly when the list price is present and not zero (JavaScript's
      truthiness), and it is what the list price exceeds the current fee by. */
  function Savings(c: Course): (r: Option<int>)
    ensures r.Some? <==> c.originalPrice.Some? && c.originalPrice.value != 0
    ensures r.Some? ==> c.currentPrice + r.value == c.originalPrice.value
  {
    match c.originalPrice
    case Some(p) => if p != 0 then Some(p - c.currentPrice) else None
    case None => None
  }

  /** `course.originalPrice && (...)`: the card strikes through the list price under the
      same condition. */
  predicate ShowsListPrice(c: Course) {
    c.originalPrice.Some? && c.originalPrice.value != 0
  }

  lemma ListPriceIffSavings(c: Course)
    ensures ShowsListPrice(c) <==> Savings(c).Some?
  {
  }

  // ---------------------------------------------------------------- tabs

  datatype Catalog = Catalog(popular: seq<Course>, trending: seq<Course>)

  datatype Tab = Tab(id: string, name: string, count: nat)

  /** The tab bar: popular first, then trending, each with its list's length. */
  function Tabs(catalog: Catalog): (r: seq<Tab>)
    ensures |r| == 2 && r[0].id != r[1].id
    ensures forall k | 0 <= k < |r| :: CoursesOf(catalog, r[k].id).Some?
    ensures forall id | CoursesOf(catalog, id).Some? :: id == r[0].id || id == r[1].id
  {
    [Tab("popular", "Popular Courses", |catalog.popular|), Tab("trending", "Trending", |catalog.trending|)]
  }

  /** `courses[activeTab]`: the list a tab shows; an id that is not a key has no list. */
  function CoursesOf(catalog: Catalog, id: string): (r: Option<seq<Course>>)
    ensures r.Some? <==> id == "popular" || id == "trending"
    ensures r.Some? ==> r.value == catalog.popular || r.value == catalog.trending
  {
    if id == "popular" then Some(catalog.popular)
    else if id == "trending" then Some(catalog.trending)
    else None
  }

  /** Every tab's count is the number of cards shown when that tab is active. */
  lemma TabCountsMatchLists(catalog: Catalog)
    ensures forall t | t in Tabs(catalog) ::
              CoursesOf(catalog, t.id).Some? && t.count == |CoursesOf(catalog, t.id).value|
  {
    assert "popular" != "trending";
  }

  // ---------------------------------------------------------------- the site's catalog

  const SiteCatalog := Catalog(
    [ Course("MERN Stack + Gen AI", Some(45000), 35000,
        ["React 18 & Hooks", "Node.js & Express", "MongoDB Atlas", "AI Integration", "Live Projects", "Job Assistance"]),
      Course("Data Science & ML", Some(55000), 42000,
        ["Python & Pandas", "Machine Learning", "Deep Learning", "TensorFlow", "Real Projects", "Industry Mentorship"]),
      Course("Java Full Stack + Gen AI", Some(48000), 38000,
        ["Core Java", "Spring Framework", "React Frontend", "AI Tools", "Microservices", "DevOps Basics"]) ],
    [ Course("Digital Marketing Mastery", Some(35000), 25000,
        ["SEO & SEM", "Social Media Marketing", "Google Analytics", "Content Strategy", "PPC Campaigns", "Certification"]),
      Course("Cybersecurity Specialist", Some(50000), 40000,
        ["Ethical Hacking", "Network Security", "Penetration Testing", "Security Tools", "Compliance", "Certifications"]),
      Course("Cloud Computing (AWS)", Some(45000), 35000,
        ["AWS Core Services", "Cloud Architecture", "DevOps on AWS", "Serverless", "Security", "AWS Certification"]) ])

  /** On the site's catalog both tabs count three courses, and every card lists four of
      its six features, notes two more, and has a positive saving. */
  lemma SiteCatalogCards()
    ensures Tabs(SiteCatalog)[0].count == 3 && Tabs(SiteCatalog)[1].count == 3
    ensures forall c | c in SiteCatalog.popular + SiteCatalog.trending ::
              |PreviewFeatures(c.features).shown| == 4 && PreviewFeatures(c.features).more == Some(2)
              && Savings(c).Some? && Savings(c).value > 0
  {
  }
}

=== FILE: email_service.dfy ===
/** The submission side of `src/utils/emailService.js`: the outbound email built by
    `sendViaWeb3Forms`, the interpretation of the provider's reply, the capped
    analytics log of `trackContactForm`, and the order of steps in
    `submitContactForm`. The HTTP exchange itself is an oracle value: what the
    provider answered, or that the exchange failed. Clock readings and the
    user-agent tag are passed in as opaque strings. */
module EmailService {
  import opened Wrappers
  import opened JsText
  import opened Validation

  const DefaultCourse := "General Inquiry"
  const SubjectPrefix := "WCC Labs Contact: "
  const DeliveryMethod := "Web3Forms"
  const DeliverySuccessText := "Your message has been sent successfully! We'll get back to you soon."
  const SendFailedText := "Failed to send email via Web3Forms"
  const ValidationFailedText := "Please fix the form errors and try again."
  const DeliveryFailedText :=
    "Sorry, we couldn't send your message. Please try again or contact us directly at info@wcclabs.com or WhatsApp: +91-9455966988"
  const MaxLogEntries := 50

  /** `formData.course || 'General Inquiry'`. */
  function CourseOrDefault(course: string): string {
    if course == "" then DefaultCourse else course
  }

  // ---------------------------------------------------------------- outbound email

  /** The fields of the JSON body posted to the provider, without the access key. */
  datatype EmailRequest = EmailRequest(subject: string, fromName: string, email: string, body: string)

  /** The first line of the message template. */
  const BodyHeading := "NEW CONTACT FORM INQUIRY - WCC LABS"

  /** The pieces of the message template between its first and last visible
      characters, in order: every field of the form under its label, the category
      line, and the fixed footer. `submittedAt` is the IST date rendering, which
      depends on the clock and locale. */
  function BodyParts(form: ContactForm, submittedAt: string): seq<string> {
    [ BodyHeading,
      "\n========================================\n",
      "\nINFORMATION:\n",
      "   Name: ", form.name, "\n",
      "   Email: ", form.email, "\n",
      "   Phone: ", form.phone, "\n",
      "\nCOURSE INTEREST:\n",
      "   ", CourseOrDefault(form.course), "\n",
      "\n\U{1F4AC} MESSAGE:\n",
      form.message, "\n",
      "\n\U{1F4C5} Submitted: ", submittedAt, " (IST)\n",
      "\n---\n",
      "\U{1F310} Sent from WCC Labs website (wcclabs.com)\n",
      "\U{26A1} Powered by Web3Forms Email Service" ]
  }

  /** The message template's text: its pieces joined. */
  function BodyText(form: ContactForm, submittedAt: string): string {
    Join(BodyParts(form, submittedAt))
  }

  /** The template literal as written in the source, before `.trim()`: it opens with a
      line break and closes with a line break and four spaces of indentation. */
  function RawBody(form: ContactForm, submittedAt: string): string {
    "\n" + BodyText(form, submittedAt) + "\n    "
  }

  /** The request `sendViaWeb3Forms` posts. The subject names the course or the default
      category; the sender fields are copied from the form; and `.trim()` strips only
      the template's own leading line break and trailing indentation, never any of the
      form's text, whatever the form holds. */
  function EmailRequestFor(form: ContactForm, submittedAt: string): (r: EmailRequest)
    ensures |r.subject| > |SubjectPrefix| && r.subject[..|SubjectPrefix|] == SubjectPrefix
    ensures form.course != "" ==> r.subject[|SubjectPrefix|..] == form.course
    ensures form.course == "" ==> r.subject[|SubjectPrefix|..] == DefaultCourse
    ensures r.fromName == form.name && r.email == form.email
    ensures r.body == BodyText(form, submittedAt)
  {
    var body := BodyText(form, submittedAt);
    JoinStarts(BodyParts(form, submittedAt));
    JoinEnds(BodyParts(form, submittedAt));
    TrimOfPadded("\n", body, "\n    ");
    EmailRequest(SubjectPrefix + CourseOrDefault(form.course), form.name, form.email, Trim(RawBody(form, submittedAt)))
  }

  // ---------------------------------------------------------------- provider reply

  /** The parsed JSON reply: its `success` flag and its `message` ('' when absent). */
  datatype ApiReply = ApiReply(success: bool, message: string)

  /** What the HTTP exchange produced: a reply with the `response.ok` status flag, or a
      failure of `fetch` or of `response.json()` with its error text. */
  datatype SendOracle =
    | Responded(httpOk: bool, reply: ApiReply)
    | ExchangeFailed(reason: string)

  /** The success value of `sendViaWeb3Forms`. */
  datatype Delivery = Delivery(methodName: string, message: string, details: ApiReply)

  datatype SendResult = Sent(delivery: Delivery) | SendError(message: string)

  /** The reply check of `sendViaWeb3Forms`: delivered only when the status is ok AND the
      body reports success; otherwise an error carrying the provider's message, or a
      fixed fallback when it gave none. */
  function InterpretReply(oracle: SendOracle): (r: SendResult)
    ensures r.Sent? <==> oracle.Responded? && oracle.httpOk && oracle.reply.success
    ensures r.Sent? ==> r.delivery == Delivery(DeliveryMethod, DeliverySuccessText, oracle.reply)
    ensures oracle.Responded? && r.SendError? && oracle.reply.message != "" ==> r.message == oracle.reply.message
    ensures oracle.Responded? && r.SendError? && oracle.reply.message == "" ==> r.message == SendFailedText
  {
    match oracle
    case ExchangeFailed(reason) => SendError(reason)
    case Responded(ok, reply) =>
      if !ok || !reply.success then SendError(if reply.message != "" then reply.message else SendFailedText)
      else Sent(Delivery(DeliveryMethod, DeliverySuccessText, reply))
  }

  // ---------------------------------------------------------------- analytics log

  /** One analytics record. `timestamp` is the ISO clock reading and `userAgent` the
      last two words of the browser's user agent, both supplied by the environment. */
  datatype LogEntry = LogEntry(timestamp: string, course: string, methodName: string, success: bool, userAgent: string)

  /** The readings of the environment one submission uses. */
  datatype Environment = Environment(timestamp: string, submittedAt: string, userAgent: string)

  /** `analytics.push(entry)` followed by dropping the oldest entries beyond 50. */
  function AppendCapped(log: seq<LogEntry>, entry: LogEntry): (r: seq<LogEntry>)
    ensures |r| == if |log| + 1 > MaxLogEntries then MaxLogEntries else |log| + 1
    ensures r[|r| - 1] == entry
    ensures forall k | 0 <= k < |r| - 1 :: r[k] == log[|log| + 1 - |r| + k]
  {
    var grown := log + [entry];
    if |grown| > MaxLogEntries then grown[|grown| - MaxLogEntries..] else grown
  }

  /** The newest `n` elements of a sequence, in order (all of them when it is shorter). */
  function Newest<T>(s: seq<T>, n: nat): seq<T> {
    if |s| <= n then s else s[|s| - n..]
  }

  /** The log after a run of submissions, one append per submission. */
  function AppendAll(log: seq<LogEntry>, entries: seq<LogEntry>): seq<LogEntry>
    decreases |entries|
  {
    if entries == [] then log
    else AppendAll(AppendCapped(log, entries[0]), entries[1..])
  }

  /** However many submissions are made, the log holds the newest 50 records of its
      former content followed by the new ones, in their original order. */
  lemma {:induction false} AppendAllKeepsNewest(log: seq<LogEntry>, entries: seq<LogEntry>)
    requires entries != []
    ensures AppendAll(log, entries) == Newest(log + entries, MaxLogEntries)
    decreases |entries|
  {
    var next := AppendCapped(log, entries[0]);
    assert next == Newest(log + [entries[0]], MaxLogEntries);
    if |entries| > 1 {
      AppendAllKeepsNewest(next, entries[1..]);
      NewestOfNewest(log + [entries[0]], entries[1..]);
      assert log + [entries[0]] + entries[1..] == log + entries;
    }
  }

  lemma NewestOfNewest(s: seq<LogEntry>, t: seq<LogEntry>)
    ensures Newest(Newest(s, MaxLogEntries) + t, MaxLogEntries) == Newest(s + t, MaxLogEntries)
  {
    var n := MaxLogEntries;
    if |s| > n {
      var a := Newest(s, n) + t;
      var b := s + t;
      assert a == b[|s| - n..];
      if |a| > n {
        assert a[|a| - n..] == b[|b| - n..];
      }
    }
  }

  /** After 51 submissions into an empty log, it holds 50 records and the oldest one is
      the second submission's. */
  lemma FiftyFirstSubmissionDropsFirst(entries: seq<LogEntry>)
    requires |entries| == 51
    ensures |AppendAll([], entries)| == 50
    ensures AppendAll([], entries)[0] == entries[1]
    ensures AppendAll([], entries)[49] == entries[50]
  {
    AppendAllKeepsNewest([], entries);
    assert [] + entries == entries;
  }

  // ---------------------------------------------------------------- submitContactForm

  /** What `submitContactForm` resolves or rejects with, the analytics log after it, and
      the requests it sent to the provider (none or one). */
  datatype SubmitResult = SubmitResult(outcome: Result, log: seq<LogEntry>, sent: seq<EmailRequest>)

  datatype Result = Resolved(delivery: Delivery) | Rejected(message: string)

  /** `submitContactForm(formData)`: validate and stop before any send when invalid; else
      send, record the attempt in the log, and on any send failure reject with the fixed
      message naming the fallback contacts. */
  function SubmitContactForm(form: ContactForm, env: Environment, oracle: SendOracle, log: seq<LogEntry>): (r: SubmitResult)
    ensures !ValidateForm(form).isValid ==> r == SubmitResult(Rejected(ValidationFailedText), log, [])
    ensures ValidateForm(form).isValid ==>
              && r.sent == [EmailRequestFor(form, env.submittedAt)]
              && r.log == AppendCapped(log, LogEntry(env.timestamp, CourseOrDefault(form.course), DeliveryMethod, r.outcome.Resolved?, env.userAgent))
    ensures r.outcome.Resolved? <==> ValidateForm(form).isValid && oracle.Responded? && oracle.httpOk && oracle.reply.success
    ensures ValidateForm(form).isValid && r.outcome.Rejected? ==> r.outcome.message == DeliveryFailedText
    ensures r.outcome.Resolved? ==> r.outcome.delivery == Delivery(DeliveryMethod, DeliverySuccessText, oracle.reply)
  {
    var validation := ValidateForm(form);
    if !validation.isValid then
      SubmitResult(Rejected(ValidationFailedText), log, [])
    else
      var request := EmailRequestFor(form, env.submittedAt);
      match InterpretReply(oracle)
      case Sent(delivery) =>
        var entry := LogEntry(env.timestamp, CourseOrDefault(form.course), delivery.methodName, true, env.userAgent);
        SubmitResult(Resolved(delivery), AppendCapped(log, entry), [request])
      case SendError(_) =>
        var entry := LogEntry(env.timestamp, CourseOrDefault(form.course), DeliveryMethod, false, env.userAgent);
        SubmitResult(Rejected(DeliveryFailedText), AppendCapped(log, entry), [request])
  }

  /** An invalid form never reaches the provider: the result is the same whatever the
      provider would have answered. */
  lemma InvalidFormIgnoresProvider(form: ContactForm, env: Environment, a: SendOracle, b: SendOracle, log: seq<LogEntry>)
    requires !ValidateForm(form).isValid
    ensures SubmitContactForm(form, env, a, log) == SubmitContactForm(form, env, b, log)
    ensures SubmitContactForm(form, env, a, log).sent == []
  {
  }

  /** The provider's own error text never reaches the caller: any two failed sends of the
      same form reject identically and leave the same log. */
  lemma ProviderMessageIsDiscarded(form: ContactForm, env: Environment, a: SendOracle, b: SendOracle, log: seq<LogEntry>)
    requires InterpretReply(a).SendError? && InterpretReply(b).SendError?
    ensures SubmitContactForm(form, env, a, log) == SubmitContactForm(form, env, b, log)
  {
  }
}

=== FILE: hire_talent.dfy ===
/** The pure state computations of the hiring form in
    `src/components/sections/HireTalent.jsx`: the validation effect that derives
    `fieldErrors` and `isFormValid` from `(formData, touchedFields)`, the touched-map
    updates of `handleBlur` and `handleSubmit`, the payload handed to
    `submitContactForm`, and the submit flow around it. The effect mixes the shared
    rules of Validation with presence checks of its own and a 20-character message
    minimum, and it has no upper bound on the message; the shared validator that runs
    on submit does. */
module HireTalent {
  import opened Wrappers
  import opened JsText
  import opened Validation
  import opened EmailService

  datatype HireForm = HireForm(
    companyName: string,
    contactPerson: string,
    email: string,
    phone: string,
    jobTitle: string,
    skillsRequired: string,
    experience: string,
    location: string,
    message: string)

  /** The six fields the effect checks, in its order. */
  datatype RequiredField = CompanyName | ContactPerson | Email | Phone | JobTitle | Message {

    /** The input's `name`, which keys `formData` and `touchedFields`. */
    function Key(): string {
      match this
      case CompanyName => "companyName"
      case ContactPerson => "contactPerson"
      case Email => "email"
      case Phone => "phone"
      case JobTitle => "jobTitle"
      case Message => "message"
    }
  }

  const RequiredFields: seq<RequiredField> := [CompanyName, ContactPerson, Email, Phone, JobTitle, Message]

  const HireMessageMinLength := 20
  const HireMessageTooShort := "Please provide more details about your hiring requirements (minimum 20 characters)"
  const RequiredSuffix := " is required"
  const GateBlockedText := "Please fix all form errors before submitting"
  const HiringCourse := "HIRING INQUIRY"
  const NotSpecified := "Not specified"

  function ValueOf(form: HireForm, f: RequiredField): string {
    match f
    case CompanyName => form.companyName
    case ContactPerson => form.contactPerson
    case Email => form.email
    case Phone => form.phone
    case JobTitle => form.jobTitle
    case Message => form.message
  }

  // ---------------------------------------------------------------- labels

  /** `.replace(/([A-Z])/g, ' $1')`: a space before every ASCII capital. */
  function SpaceBeforeCapitals(s: string): (r: string)
    ensures |r| >= |s|
  {
    if s == [] then []
    else (if IsAsciiUpper(s[0]) then [' ', s[0]] else [s[0]]) + SpaceBeforeCapitals(s[1..])
  }

  /** `field.charAt(0).toUpperCase() + field.slice(1).replace(/([A-Z])/g, ' $1')`. */
  function Label(key: string): (r: string)
    ensures r == [] <==> key == []
    ensures key != [] ==> r[0] == ToAsciiUpper(key[0])
    ensures |r| >= |key|
  {
    if key == [] then [] else [ToAsciiUpper(key[0])] + SpaceBeforeCapitals(key[1..])
  }

  predicate IsNotSpace(c: char) {
    c != ' '
  }

  /** The reading of a label back into a camelCase key: lower-case the first letter and
      drop the spaces. */
  function Unlabel(text: string): string {
    if text == [] then [] else [ToAsciiLower(text[0])] + Filter(IsNotSpace, text[1..])
  }

  lemma {:induction false} SpacesDropOut(s: string)
    requires forall i | 0 <= i < |s| :: s[i] != ' '
    ensures Filter(IsNotSpace, SpaceBeforeCapitals(s)) == s
  {
    if s != [] {
      var head := if IsAsciiUpper(s[0]) then [' ', s[0]] else [s[0]];
      var rest := SpaceBeforeCapitals(s[1..]);
      assert SpaceBeforeCapitals(s) == head + rest;
      FilterConcat(IsNotSpace, head, rest);
      assert Filter(IsNotSpace, head) == [s[0]] by {
        if IsAsciiUpper(s[0]) {
          assert head == [' '] + [s[0]];
          FilterConcat(IsNotSpace, [' '], [s[0]]);
        }
      }
      assert forall i | 0 <= i < |s[1..]| :: s[1..][i] == s[i + 1];
      SpacesDropOut(s[1..]);
      assert s == [s[0]] + s[1..];
    }
  }

  /** A camelCase key without spaces is recovered from its label, so distinct keys get
      distinct labels. */
  lemma LabelRoundTrip(key: string)
    requires key != [] && IsAsciiLower(key[0])
    requires forall i | 0 <= i < |key| :: key[i] != ' '
    ensures Unlabel(Label(key)) == key
  {
    LowerOfUpper(key[0]);
    assert forall i | 0 <= i < |key[1..]| :: key[1..][i] == key[i + 1];
    SpacesDropOut(key[1..]);
    assert Label(key)[1..] == SpaceBeforeCapitals(key[1..]);
  }

  lemma {:induction false} SpaceBeforeCapitalsConcat(a: string, b: string)
    ensures SpaceBeforeCapitals(a + b) == SpaceBeforeCapitals(a) + SpaceBeforeCapitals(b)
  {
    if a != [] {
      assert (a + b)[0] == a[0];
      assert (a + b)[1..] == a[1..] + b;
      SpaceBeforeCapitalsConcat(a[1..], b);
      var head := if IsAsciiUpper(a[0]) then [' ', a[0]] else [a[0]];
      var x, y := SpaceBeforeCapitals(a[1..]), SpaceBeforeCapitals(b);
      assert SpaceBeforeCapitals(a + b) == head + (x + y);
      assert SpaceBeforeCapitals(a) == head + x;
      assert head + (x + y) == (head + x) + y;
    } else {
      assert a + b == b;
    }
  }

  lemma {:induction false} NoCapitalsNoSpaces(s: string)
    requires forall i | 0 <= i < |s| :: IsAsciiLower(s[i])
    ensures SpaceBeforeCapitals(s) == s
  {
    if s != [] {
      NoCapitalsNoSpaces(s[1..]);
    }
  }

  /** The label of a key made of a lower-case word followed by one capitalised word. */
  lemma TwoWordLabel(first: char, rest: string, capital: char, tail: string)
    requires IsAsciiLower(first) && IsAsciiUpper(capital)
    requires forall i | 0 <= i < |rest| :: IsAsciiLower(rest[i])
    requires forall i | 0 <= i < |tail| :: IsAsciiLower(tail[i])
    ensures Label([first] + rest + [capital] + tail) == [ToAsciiUpper(first)] + rest + [' ', capital] + tail
  {
    var key := [first] + rest + [capital] + tail;
    assert key[1..] == rest + ([capital] + tail);
    SpaceBeforeCapitalsConcat(rest, [capital] + tail);
    NoCapitalsNoSpaces(rest);
    assert ([capital] + tail)[1..] == tail;
    NoCapitalsNoSpaces(tail);
  }

  /** The labels of the three fields that only get a presence check. */
  lemma RequiredLabels()
    ensures Label("companyName") == "Company Name"
    ensures Label("jobTitle") == "Job Title"
    ensures Label("message") == "Message"
  {
    CompanyLabel();
    JobTitleLabel();
    MessageLabel();
  }

  lemma CompanyLabel()
    ensures Label("companyName") == "Company Name"
  {
    var rest, tail := "ompany", "ame";
    assert ToAsciiUpper('c') == 'C';
    assert forall i | 0 <= i < |rest| :: IsAsciiLower(rest[i]);
    assert forall i | 0 <= i < |tail| :: IsAsciiLower(tail[i]);
    TwoWordLabel('c', rest, 'N', tail);
    assert "companyName" == ['c'] + rest + ['N'] + tail;
    assert [ToAsciiUpper('c')] + rest + [' ', 'N'] + tail == "Company Name";
  }

  lemma JobTitleLabel()
    ensures Label("jobTitle") == "Job Title"
  {
    var rest, tail := "ob", "itle";
    assert ToAsciiUpper('j') == 'J';
    assert forall i | 0 <= i < |rest| :: IsAsciiLower(rest[i]);
    assert forall i | 0 <= i < |tail| :: IsAsciiLower(tail[i]);
    TwoWordLabel('j', rest, 'T', tail);
    assert "jobTitle" == ['j'] + rest + ['T'] + tail;
    assert [ToAsciiUpper('j')] + rest + [' ', 'T'] + tail == "Job Title";
  }

  lemma MessageLabel()
    ensures Label("message") == "Message"
  {
    assert ToAsciiUpper('m') == 'M';
    NoCapitalsNoSpaces("essage");
    assert "message"[1..] == "essage";
  }

  // ---------------------------------------------------------------- the effect

  /** Why the effect flags a touched field: a shared rule's error, a missing value, or
      a message under the 20-character minimum. Text() is the message shown under the
      field. */
  datatype HireProblem = SharedError(error: FieldError) | Missing(field: RequiredField) | TooFewDetails {
    function Text(): string {
      match this
      case SharedError(e) => e.Text()
      case Missing(f) => Label(f.Key()) + RequiredSuffix
      case TooFewDetails => HireMessageTooShort
    }
  }

  /** A shared rule's verdict, as a problem of the hiring form. */
  function Shared(verdict: Option<FieldError>): Option<HireProblem> {
    match verdict
    case Some(e) => Some(SharedError(e))
    case None => None
  }

  /** `!formData[field].trim()`: the field is reported missing when blank. */
  function Presence(f: RequiredField, value: string): Option<HireProblem> {
    if IsBlank(value) then Some(Missing(f)) else None
  }

  /** The check a touched required field gets: the shared `email` and `phone` rules for
      those fields, the shared `name` rule for the contact person, a presence check for
      the others, and for the message also the 20-character minimum. */
  function TouchedFieldError(form: HireForm, f: RequiredField): (r: Option<HireProblem>)
    ensures IsBlank(ValueOf(form, f)) ==> r.Some?
    ensures f == CompanyName || f == JobTitle ==> (r.None? <==> !IsBlank(ValueOf(form, f)))
    ensures f == Message ==> (r.None? <==> |Trim(form.message)| >= HireMessageMinLength)
  {
    match f
    case Email => Shared(ValidateEmail(form.email))
    case Phone => Shared(ValidatePhone(form.phone))
    case ContactPerson => Shared(ValidateName(form.contactPerson))
    case CompanyName => Presence(f, form.companyName)
    case JobTitle => Presence(f, form.jobTitle)
    case Message =>
      if IsBlank(form.message) then Some(Missing(f))
      else if |Trim(form.message)| < HireMessageMinLength then Some(TooFewDetails)
      else None
  }

  /** The effect's `validateField` calls: for email and phone it passes the field's own
      key, for the contact person the key `name`; each selects the rule
      TouchedFieldError applies. */
  lemma SharedRulesAreValidateField(form: HireForm)
    ensures TouchedFieldError(form, Email) == Shared(ValidateField("email", form.email))
    ensures TouchedFieldError(form, Phone) == Shared(ValidateField("phone", form.phone))
    ensures TouchedFieldError(form, ContactPerson) == Shared(ValidateField("name", form.contactPerson))
  {
    assert ValidateField(EmailField.Key(), form.email) == Rule(EmailField, form.email);
    assert ValidateField(PhoneField.Key(), form.phone) == Rule(PhoneField, form.phone);
    assert ValidateField(NameField.Key(), form.contactPerson) == Rule(NameField, form.contactPerson);
  }

  /** The three fields checked by shared rules, each with its own rule. */
  lemma SharedChecks(form: HireForm)
    ensures TouchedFieldError(form, Email).None? <==> ValidateEmail(form.email).None?
    ensures TouchedFieldError(form, Phone).None? <==> ValidatePhone(form.phone).None?
    ensures TouchedFieldError(form, ContactPerson).None? <==> ValidateName(form.contactPerson).None?
  {
  }

  type Touched = map<string, bool>

  /** `touchedFields[field]` is truthy. */
  predicate IsTouched(touched: Touched, key: string) {
    key in touched && touched[key]
  }

  datatype HireValidation = HireValidation(fieldErrors: map<RequiredField, HireProblem>, isFormValid: bool)

  /** What the `forEach` of the effect leaves in `errors` and `valid` after visiting
      `fields`: an error for each touched field whose check fails; `valid` false as soon
      as a touched field has an error or an untouched one is blank. */
  function CheckFields(form: HireForm, touched: Touched, fields: seq<RequiredField>): (r: HireValidation)
    ensures forall f | f in r.fieldErrors ::
              f in fields && IsTouched(touched, f.Key()) && TouchedFieldError(form, f) == Some(r.fieldErrors[f])
    ensures forall f | f in fields && IsTouched(touched, f.Key()) ::
              f in r.fieldErrors <==> TouchedFieldError(form, f).Some?
    ensures r.isFormValid <==> forall f | f in fields ::
              if IsTouched(touched, f.Key()) then TouchedFieldError(form, f).None? else !IsBlank(ValueOf(form, f))
  {
    if fields == [] then HireValidation(map[], true)
    else
      var init := fields[..|fields| - 1];
      var before := CheckFields(form, touched, init);
      var f := fields[|fields| - 1];
      assert forall g | g in fields :: g in init || g == f;
      if IsTouched(touched, f.Key()) then
        match TouchedFieldError(form, f)
        case Some(e) => HireValidation(before.fieldErrors[f := e], false)
        case None => HireValidation(before.fieldErrors - {f}, before.isFormValid)
      else
        HireValidation(before.fieldErrors - {f}, before.isFormValid && !IsBlank(ValueOf(form, f)))
  }

  /** The validation effect. Errors appear only for touched required fields, each the
      failing check's message. The form is valid exactly when every required field is
      non-blank and every touched one passes its check: a blank field blocks it whether
      touched or not, and an untouched non-blank field is never checked at all. */
  function ValidateHireForm(form: HireForm, touched: Touched): (r: HireValidation)
    ensures forall f | f in r.fieldErrors ::
              IsTouched(touched, f.Key()) && TouchedFieldError(form, f) == Some(r.fieldErrors[f])
    ensures forall f: RequiredField | IsTouched(touched, f.Key()) ::
              f in r.fieldErrors <==> TouchedFieldError(form, f).Some?
    ensures r.isFormValid <==>
              && (forall f: RequiredField :: !IsBlank(ValueOf(form, f)))
              && (forall f: RequiredField | IsTouched(touched, f.Key()) :: TouchedFieldError(form, f).None?)
  {
    AllRequiredFieldsListed();
    var checked := CheckFields(form, touched, RequiredFields);
    var allFilled := AllFilled(form);
    AllFilledIff(form);
    HireValidation(checked.fieldErrors, checked.isFormValid && allFilled)
  }

  /** `requiredFields.every(field => formData[field].trim())`. */
  function AllFilled(form: HireForm): bool {
    !IsBlank(form.companyName) && !IsBlank(form.contactPerson) && !IsBlank(form.email)
    && !IsBlank(form.phone) && !IsBlank(form.jobTitle) && !IsBlank(form.message)
  }

  lemma AllFilledIff(form: HireForm)
    ensures AllFilled(form) <==> forall f: RequiredField :: !IsBlank(ValueOf(form, f))
  {
    if AllFilled(form) {
      forall f: RequiredField ensures !IsBlank(ValueOf(form, f)) {
        match f
        case CompanyName =>
        case ContactPerson =>
        case Email =>
        case Phone =>
        case JobTitle =>
        case Message =>
      }
    } else {
      assert ValueOf(form, CompanyName) == form.companyName;
      assert ValueOf(form, ContactPerson) == form.contactPerson;
      assert ValueOf(form, Email) == form.email;
      assert ValueOf(form, Phone) == form.phone;
      assert ValueOf(form, JobTitle) == form.jobTitle;
      assert ValueOf(form, Message) == form.message;
    }
  }

  lemma AllRequiredFieldsListed()
    ensures forall f: RequiredField :: f in RequiredFields
  {
    forall f: RequiredField ensures f in RequiredFields {
      RequiredFieldListed(f);
    }
  }

  lemma RequiredFieldListed(f: RequiredField)
    ensures f in RequiredFields
  {
    match f
    case CompanyName => assert RequiredFields[0] == f;
    case ContactPerson => assert RequiredFields[1] == f;
    case Email => assert RequiredFields[2] == f;
    case Phone => assert RequiredFields[3] == f;
    case JobTitle => assert RequiredFields[4] == f;
    case Message => assert RequiredFields[5] == f;
  }

  /** A required field that passes its check is not blank. */
  lemma TouchedPassImpliesFilled(form: HireForm, f: RequiredField)
    requires TouchedFieldError(form, f).None?
    ensures !IsBlank(ValueOf(form, f))
  {
  }

  /** A blank company name, job title or message is reported missing. */
  lemma BlankFieldIsRequired(form: HireForm, f: RequiredField)
    requires f == CompanyName || f == JobTitle || f == Message
    requires IsBlank(ValueOf(form, f))
    ensures TouchedFieldError(form, f) == Some(Missing(f))
  {
  }

  /** The message check of the effect: fewer than 20 trimmed characters gets the
      minimum-length text, and any longer message passes, however long. */
  lemma MessageLengthCheck(form: HireForm)
    requires !IsBlank(form.message)
    ensures TouchedFieldError(form, Message).None? <==> |Trim(form.message)| >= HireMessageMinLength
    ensures TouchedFieldError(form, Message).Some? ==> TouchedFieldError(form, Message) == Some(TooFewDetails)
  {
  }

  // ---------------------------------------------------------------- touched map

  /** `handleBlur`: marks the blurred input as touched and keeps every other entry. */
  function HandleBlur(touched: Touched, name: string): (r: Touched)
    ensures IsTouched(r, name)
    ensures forall k | k != name :: (k in r <==> k in touched) && (k in r ==> r[k] == touched[k])
  {
    touched[name := true]
  }

  /** `handleSubmit`'s touch-all: a fresh map with exactly the six required keys, all
      true, whatever was touched before. */
  function SubmitTouched(): (r: Touched)
    ensures forall k :: k in r <==> exists f: RequiredField :: f.Key() == k
    ensures forall f: RequiredField :: IsTouched(r, f.Key())
  {
    map f: RequiredField | f in RequiredFields :: f.Key() := true
  }

  // ---------------------------------------------------------------- payload

  const HiringHeading := "COMPANY HIRING INQUIRY:"
  const RequirementsTitle := "\n\nRequirements:"

  /** `value || 'Not specified'`. */
  function OrNotSpecified(value: string): string {
    if value == "" then NotSpecified else value
  }

  /** The lines between the heading and the requirements title: the company, contact
      and job title as entered, the optional fields or 'Not specified'. */
  function HiringDetails(form: HireForm): string {
    Join([
      "\n\nCompany: ", form.companyName,
      "\nContact Person: ", form.contactPerson,
      "\nJob Title: ", form.jobTitle,
      "\nSkills Required: ", OrNotSpecified(form.skillsRequired),
      "\nExperience Level: ", OrNotSpecified(form.experience),
      "\nLocation: ", OrNotSpecified(form.location)])
  }

  /** The composed message up to and including "Requirements:". */
  function HiringSummary(form: HireForm): string {
    HiringHeading + HiringDetails(form) + RequirementsTitle
  }

  /** The template literal before `.trim()`: a leading line break, the summary, a line
      break, the requirements as typed, and a line break with eight spaces of
      indentation. */
  function RawHiringMessage(form: HireForm): string {
    "\n" + HiringSummary(form) + "\n" + form.message + "\n        "
  }

  /** The summary starts with 'C' and ends with ':', neither of them whitespace. */
  lemma SummaryEnds(form: HireForm)
    ensures |HiringSummary(form)| > |HiringHeading| + |RequirementsTitle|
    ensures HiringSummary(form)[0] == 'C'
    ensures HiringSummary(form)[|HiringSummary(form)| - 1] == ':'
  {
    var d := HiringDetails(form);
    assert (HiringHeading + d + RequirementsTitle)[0] == HiringHeading[0];
    var n := |HiringHeading + d|;
    assert (HiringHeading + d + RequirementsTitle)[n + |RequirementsTitle| - 1] == RequirementsTitle[|RequirementsTitle| - 1];
  }

  /** `hiringFormData`: the contact person as name, email and phone unchanged, the fixed
      category, and the composed message. Trimming it removes only the template's
      padding and the requirements' own trailing whitespace: the summary with the
      company, contact, job title and optional fields is kept intact, and blank
      requirements leave the summary alone. */
  function HiringPayload(form: HireForm): (r: ContactForm)
    ensures r.name == form.contactPerson && r.email == form.email && r.phone == form.phone
    ensures r.course == HiringCourse
    ensures !IsBlank(form.message) ==> r.message == HiringSummary(form) + "\n" + TrimEnd(form.message)
    ensures IsBlank(form.message) ==> r.message == HiringSummary(form)
  {
    PayloadMessage(form);
    ContactForm(form.contactPerson, form.email, form.phone, HiringCourse, Trim(RawHiringMessage(form)))
  }

  lemma PayloadMessage(form: HireForm)
    ensures !IsBlank(form.message) ==> Trim(RawHiringMessage(form)) == HiringSummary(form) + "\n" + TrimEnd(form.message)
    ensures IsBlank(form.message) ==> Trim(RawHiringMessage(form)) == HiringSummary(form)
  {
    if !IsBlank(form.message) {
      FilledPayloadMessage(form);
    } else {
      BlankPayloadMessage(form);
    }
  }

  lemma FilledPayloadMessage(form: HireForm)
    requires !IsBlank(form.message)
    ensures Trim(RawHiringMessage(form)) == HiringSummary(form) + "\n" + TrimEnd(form.message)
  {
    var summary := HiringSummary(form);
    var m := form.message;
    var tail := "\n        ";
    SummaryEnds(form);
    TrimEndSplit(m);
    var kept := TrimEnd(m);
    var dropped := m[|kept|..];
    assert AllWhitespace(tail);
    AllWhitespaceConcat(dropped, tail);
    var core := summary + "\n" + kept;
    assert core[0] == 'C';
    assert core[|core| - 1] == kept[|kept| - 1];
    assert RawHiringMessage(form) == "\n" + core + (dropped + tail);
    TrimOfPadded("\n", core, dropped + tail);
  }

  lemma BlankPayloadMessage(form: HireForm)
    requires IsBlank(form.message)
    ensures Trim(RawHiringMessage(form)) == HiringSummary(form)
  {
    var summary := HiringSummary(form);
    var m := form.message;
    var tail := "\n        ";
    SummaryEnds(form);
    assert AllWhitespace(tail);
    AllWhitespaceConcat("\n", m);
    AllWhitespaceConcat("\n" + m, tail);
    assert RawHiringMessage(form) == "\n" + summary + ("\n" + m + tail);
    TrimOfPadded("\n", summary, "\n" + m + tail);
  }

  // ---------------------------------------------------------------- submit

  datatype HireOutcome =
    | BlockedByForm(message: string)    // the `isFormValid` gate stopped the submit
    | Delivered(delivery: Delivery)     // `submitContactForm` resolved
    | Failed(message: string)           // `submitContactForm` rejected; shown as errorMessage

  datatype HireSubmitResult = HireSubmitResult(touched: Touched, outcome: HireOutcome, log: seq<LogEntry>, sent: seq<EmailRequest>)

  /** `handleSubmit`: touch all six fields, stop when the form is not valid, otherwise
      submit the hiring payload through the shared pipeline and report its outcome. */
  function HireSubmit(form: HireForm, touched: Touched, env: Environment, oracle: SendOracle, log: seq<LogEntry>): (r: HireSubmitResult)
    ensures r.touched == SubmitTouched()
    ensures !ValidateHireForm(form, touched).isFormValid ==>
              r.outcome == BlockedByForm(GateBlockedText) && r.log == log && r.sent == []
    ensures ValidateHireForm(form, touched).isFormValid ==>
              var s := SubmitContactForm(HiringPayload(form), env, oracle, log);
              r.log == s.log && r.sent == s.sent &&
              (s.outcome.Resolved? ==> r.outcome == Delivered(s.outcome.delivery)) &&
              (s.outcome.Rejected? ==> r.outcome == Failed(s.outcome.message))
  {
    var newTouched := SubmitTouched();
    if !ValidateHireForm(form, touched).isFormValid then
      HireSubmitResult(newTouched, BlockedByForm(GateBlockedText), log, [])
    else
      var s := SubmitContactForm(HiringPayload(form), env, oracle, log);
      match s.outcome
      case Resolved(d) => HireSubmitResult(newTouched, Delivered(d), s.log, s.sent)
      case Rejected(m) => HireSubmitResult(newTouched, Failed(m), s.log, s.sent)
  }

  // ---------------------------------------------------------------- the gap

  /** What the gate guarantees once every field is touched: every required field
      passes its check, the message included. */
  lemma AllTouchedGate(form: HireForm, f: RequiredField)
    requires ValidateHireForm(form, SubmitTouched()).isFormValid
    ensures TouchedFieldError(form, f).None?
  {
    assert IsTouched(SubmitTouched(), f.Key());
  }

  /** A payload whose name, email and phone pass the shared rules is valid exactly when
      its message passes the shared message rule. */
  lemma PayloadValidIffMessage(p: ContactForm)
    requires ValidateName(p.name).None? && ValidateEmail(p.email).None? && ValidatePhone(p.phone).None?
    ensures ValidateForm(p).isValid <==> ValidateMessage(p.message).None?
  {
    if ValidateMessage(p.message).None? {
      PassingFieldsLeaveNoErrors(p);
    } else {
      FailingFieldIsReported(p);
      assert MessageField in ValidateForm(p).errors;
    }
  }

  /** With every field touched and the form valid, the shared validator on submit
      rejects the payload exactly when the composed message exceeds 1000 characters:
      the effect checks no upper bound, the shared message rule does. */
  lemma AllTouchedGapIsMessageLength(form: HireForm)
    requires ValidateHireForm(form, SubmitTouched()).isFormValid
    ensures ValidateForm(HiringPayload(form)).isValid <==>
              |HiringSummary(form)| + 1 + |TrimEnd(form.message)| <= MaxMessageLength
  {
    AllTouchedGate(form, ContactPerson);
    AllTouchedGate(form, Email);
    AllTouchedGate(form, Phone);
    AllTouchedGate(form, Message);
    SharedChecks(form);
    PassingChecksGap(form);
  }

  /** The same threshold, from the shared rules passing on the contact fields and a
      non-blank requirement. */
  lemma PassingChecksGap(form: HireForm)
    requires ValidateName(form.contactPerson).None? && ValidateEmail(form.email).None?
    requires ValidatePhone(form.phone).None? && !IsBlank(form.message)
    ensures ValidateForm(HiringPayload(form)).isValid <==>
              |HiringSummary(form)| + 1 + |TrimEnd(form.message)| <= MaxMessageLength
  {
    var p := HiringPayload(form);
    assert p.name == form.contactPerson && p.email == form.email && p.phone == form.phone;
    PayloadValidIffMessage(p);
    PayloadMessageIsItsOwnTrim(form);
  }

  /** The composed message of a non-blank requirement needs no trimming, and is longer
      than the shared minimum. */
  lemma PayloadMessageIsItsOwnTrim(form: HireForm)
    requires !IsBlank(form.message)
    ensures Trim(HiringPayload(form).message) == HiringPayload(form).message
    ensures |HiringPayload(form).message| >= MinMessageLength
  {
    var kept := TrimEnd(form.message);
    var full := HiringSummary(form) + "\n" + kept;
    SummaryEnds(form);
    assert full[0] == 'C';
    assert full[|full| - 1] == kept[|kept| - 1];
    TrimOfUnpadded(full);
  }

  /** A form the hiring gate accepts, with a requirement of 1000 or more trimmed
      characters, is turned away by the shared validator: the submit fails with the
      generic validation text and nothing is sent. */
  lemma LongRequirementsPassGateButFailSubmit(form: HireForm, touched: Touched, env: Environment, oracle: SendOracle, log: seq<LogEntry>)
    requires ValidateHireForm(form, touched).isFormValid
    requires |Trim(form.message)| >= MaxMessageLength
    ensures HireSubmit(form, touched, env, oracle, log).outcome == Failed(ValidationFailedText)
    ensures HireSubmit(form, touched, env, oracle, log).sent == []
  {
    var p := HiringPayload(form);
    assert !IsBlank(form.message);
    PayloadMessageIsItsOwnTrim(form);
    TrimWithinTrimEnd(form.message);
    assert ValidateMessage(p.message) == Some(MessageTooLong);
    FailingFieldIsReported(p);
    assert MessageField in ValidateForm(p).errors;
    RejectedPayloadFailsSubmit(form, touched, env, oracle, log);
  }

  /** A submit that passes the hiring gate with a payload the shared validator rejects
      fails with the generic validation text, and nothing is sent. */
  lemma RejectedPayloadFailsSubmit(form: HireForm, touched: Touched, env: Environment, oracle: SendOracle, log: seq<LogEntry>)
    requires ValidateHireForm(form, touched).isFormValid
    requires !ValidateForm(HiringPayload(form)).isValid
    ensures HireSubmit(form, touched, env, oracle, log).outcome == Failed(ValidationFailedText)
    ensures HireSubmit(form, touched, env, oracle, log).sent == []
    ensures HireSubmit(form, touched, env, oracle, log).log == log
  {
  }

  /** An email the user never left is never checked: when every other required field
      passes its check, a filled-in but malformed, untouched email lets the gate open,
      and the shared validator then rejects the payload. */
  lemma UntouchedBadEmailPassesGate(form: HireForm, touched: Touched)
    requires !IsTouched(touched, "email")
    requires !IsBlank(form.email) && ValidateEmail(form.email) == Some(EmailInvalid)
    requires forall f: RequiredField | f != Email :: TouchedFieldError(form, f).None?
    ensures ValidateHireForm(form, touched).isFormValid
    ensures !ValidateForm(HiringPayload(form)).isValid
  {
    forall f: RequiredField ensures !IsBlank(ValueOf(form, f)) {
      if f != Email {
        TouchedPassImpliesFilled(form, f);
      }
    }
    forall f: RequiredField | IsTouched(touched, f.Key()) ensures TouchedFieldError(form, f).None? {
      assert f != Email by { assert Email.Key() == "email"; }
    }
    BadEmailRejectsPayload(form);
  }

  /** A payload carrying an email the shared rule rejects is invalid. */
  lemma BadEmailRejectsPayload(form: HireForm)
    requires ValidateEmail(form.email).Some?
    ensures !ValidateForm(HiringPayload(form)).isValid
  {
    var p := HiringPayload(form);
    assert p.email == form.email;
    FailingFieldIsReported(p);
    assert EmailField in ValidateForm(p).errors;
  }
}

=== FILE: jstext.dfy ===
/** The few JavaScript string primitives the site's logic is built from, on strings
    seen as sequences of characters: the `\s` class, `String.prototype.trim`, a
    character filter (`replace(/[...]/g, '')`), `substring(0, n)` and the decimal
    rendering of a count. `.length` is the length of the sequence. */
module JsText {

  /** The WhiteSpace and LineTerminator code points of ECMA-262 (sections 12.2 and
      12.3): tab, line feed, vertical tab, form feed, carriage return, space, no-break
      space, the Ogham space mark, U+2000 to U+200A, the line and paragraph
      separators, the narrow no-break space, the medium mathematical space, the
      ideographic space and the byte order mark. */
  const JsWhitespace: set<char> := {
    '\t', '\n', '\U{000B}', '\U{000C}', '\r', ' ', '\U{00A0}', '\U{1680}',
    '\U{2000}', '\U{2001}', '\U{2002}', '\U{2003}', '\U{2004}', '\U{2005}',
    '\U{2006}', '\U{2007}', '\U{2008}', '\U{2009}', '\U{200A}',
    '\U{2028}', '\U{2029}', '\U{202F}', '\U{205F}', '\U{3000}', '\U{FEFF}'}

  /** The characters matched by `\s` and stripped by `trim()`: the WhiteSpace and
      LineTerminator code points. One predicate serves both, because the standard
      defines both with the same set. */
  predicate IsJsWhitespace(c: char) {
    c in JsWhitespace
  }

  /** No ASCII letter or digit is whitespace. */
  lemma AlnumIsNotWhitespace(c: char)
    requires IsAsciiAlnum(c)
    ensures !IsJsWhitespace(c)
  {
  }

  predicate IsAsciiLetter(c: char) {
    ('a' <= c <= 'z') || ('A' <= c <= 'Z')
  }

  predicate IsAsciiUpper(c: char) {
    'A' <= c <= 'Z'
  }

  predicate IsAsciiLower(c: char) {
    'a' <= c <= 'z'
  }

  predicate IsAsciiDigit(c: char) {
    '0' <= c <= '9'
  }

  predicate IsAsciiAlnum(c: char) {
    IsAsciiLetter(c) || IsAsciiDigit(c)
  }

  /** `toUpperCase` on one character, for the ASCII letters the field names use. */
  function ToAsciiUpper(c: char): (u: char)
    ensures IsAsciiLower(c) ==> IsAsciiUpper(u)
    ensures !IsAsciiLower(c) ==> u == c
  {
    if IsAsciiLower(c) then (c as int - 32) as char else c
  }

  /** `toLowerCase` on one character, ASCII letters only. */
  function ToAsciiLower(c: char): (l: char)
    ensures IsAsciiUpper(c) ==> IsAsciiLower(l)
    ensures !IsAsciiUpper(c) ==> l == c
  {
    if IsAsciiUpper(c) then (c as int + 32) as char else c
  }

  lemma LowerOfUpper(c: char)
    requires IsAsciiLower(c)
    ensures ToAsciiLower(ToAsciiUpper(c)) == c
  {
  }

  ghost predicate AllWhitespace(s: seq<char>) {
    forall i | 0 <= i < |s| :: IsJsWhitespace(s[i])
  }

  /** The length of the run of whitespace that starts at index `from`. */
  function LeadingFrom(s: seq<char>, from: nat): (n: nat)
    requires from <= |s|
    ensures from + n <= |s|
    ensures forall i | from <= i < from + n :: IsJsWhitespace(s[i])
    ensures from + n == |s| || !IsJsWhitespace(s[from + n])
    decreases |s| - from
  {
    if from == |s| || !IsJsWhitespace(s[from]) then 0 else 1 + LeadingFrom(s, from + 1)
  }

  /** The length of the run of whitespace that ends just before index `upto`. */
  function TrailingUpTo(s: seq<char>, upto: nat): (n: nat)
    requires upto <= |s|
    ensures n <= upto
    ensures forall i | upto - n <= i < upto :: IsJsWhitespace(s[i])
    ensures n == upto || !IsJsWhitespace(s[upto - n - 1])
  {
    if upto == 0 || !IsJsWhitespace(s[upto - 1]) then 0 else 1 + TrailingUpTo(s, upto - 1)
  }

  /** The first half of `trim()`: drops the leading whitespace and nothing else. The
      site itself only calls `trim()`; the halves describe what that trim keeps. */
  function TrimStart(s: seq<char>): seq<char> {
    s[LeadingFrom(s, 0)..]
  }

  /** The second half of `trim()`: drops the trailing whitespace and nothing else. */
  function TrimEnd(s: seq<char>): seq<char> {
    s[..|s| - TrailingUpTo(s, |s|)]
  }

  /** `trim()`: TrimEnd after TrimStart. The result is empty exactly when the
      input is all whitespace, and otherwise neither starts nor ends with whitespace;
      TrimOfPadded shows it is the unique such core of its input. */
  function Trim(s: seq<char>): (r: seq<char>)
    ensures |r| <= |s|
    ensures r == [] <==> AllWhitespace(s)
    ensures r == [] || (!IsJsWhitespace(r[0]) && !IsJsWhitespace(r[|r| - 1]))
  {
    var t := TrimStart(s);
    var r := TrimEnd(t);
    assert r != [] ==> r[0] == t[0];
    r
  }

  /** JavaScript's `!value.trim()`: the value is empty or whitespace only. */
  predicate IsBlank(s: seq<char>) {
    Trim(s) == []
  }

  /** TrimStart removes exactly a whitespace run, and what remains is empty or
      starts with a character that is not whitespace. */
  lemma TrimStartSplit(s: seq<char>)
    ensures s == s[..|s| - |TrimStart(s)|] + TrimStart(s)
    ensures AllWhitespace(s[..|s| - |TrimStart(s)|])
    ensures TrimStart(s) == [] || !IsJsWhitespace(TrimStart(s)[0])
  {
    var k := LeadingFrom(s, 0);
    assert s == s[..k] + s[k..];
  }

  /** TrimEnd removes exactly a whitespace run, and what remains is empty or ends
      with a character that is not whitespace. */
  lemma TrimEndSplit(s: seq<char>)
    ensures s == TrimEnd(s) + s[|TrimEnd(s)|..]
    ensures AllWhitespace(s[|TrimEnd(s)|..])
    ensures TrimEnd(s) == [] || !IsJsWhitespace(TrimEnd(s)[|TrimEnd(s)| - 1])
  {
    var k := |s| - TrailingUpTo(s, |s|);
    assert s == s[..k] + s[k..];
    assert forall i | 0 <= i < |s[k..]| :: s[k..][i] == s[k + i];
  }

  /** The uniqueness half of trim: whatever whitespace pads a core that does not start
      or end with whitespace, trimming returns exactly that core. */
  lemma TrimOfPadded(a: seq<char>, m: seq<char>, b: seq<char>)
    requires AllWhitespace(a) && AllWhitespace(b)
    requires m == [] || (!IsJsWhitespace(m[0]) && !IsJsWhitespace(m[|m| - 1]))
    ensures Trim(a + m + b) == m
  {
    var s := a + m + b;
    if m == [] {
      AllWhitespaceConcat(a, b);
      assert s == a + b;
    } else {
      TrimStartPadded(a, m + b);
      assert s == a + (m + b);
      TrimEndPadded(m, b);
    }
  }

  lemma TrimStartPadded(a: seq<char>, t: seq<char>)
    requires AllWhitespace(a)
    requires t == [] || !IsJsWhitespace(t[0])
    ensures TrimStart(a + t) == t
  {
    var s := a + t;
    assert s[|a|..] == t;
  }

  lemma TrimEndPadded(m: seq<char>, b: seq<char>)
    requires AllWhitespace(b)
    requires m == [] || !IsJsWhitespace(m[|m| - 1])
    ensures TrimEnd(m + b) == m
  {
    var s := m + b;
    assert s[..|m|] == m;
  }

  /** Trimming twice changes nothing. */
  lemma TrimIdempotent(s: seq<char>)
    ensures Trim(Trim(s)) == Trim(s)
  {
    TrimOfPadded([], Trim(s), []);
    assert [] + Trim(s) + [] == Trim(s);
  }

  /** A string whose ends are not whitespace is its own trim. */
  lemma TrimOfUnpadded(s: seq<char>)
    requires s == [] || (!IsJsWhitespace(s[0]) && !IsJsWhitespace(s[|s| - 1]))
    ensures Trim(s) == s
  {
    TrimOfPadded([], s, []);
    assert [] + s + [] == s;
  }

  /** Trimming cannot cut into a stretch whose first and last characters are not
      whitespace: the trimmed string is at least as long as that stretch. */
  lemma TrimKeepsCore(p: seq<char>, core: seq<char>, q: seq<char>)
    requires core != [] && !IsJsWhitespace(core[0]) && !IsJsWhitespace(core[|core| - 1])
    ensures |Trim(p + core + q)| >= |core|
  {
    var s := p + core + q;
    var k := LeadingFrom(s, 0);
    assert s[|p|] == core[0];
    assert s[|p| + |core| - 1] == core[|core| - 1];
    assert k <= |p|;
    var t := s[k..];
    var e := TrailingUpTo(t, |t|);
    assert t[|p| + |core| - 1 - k] == s[|p| + |core| - 1];
    assert e <= |t| - (|p| + |core| - k);
  }

  lemma AllWhitespaceConcat(a: seq<char>, b: seq<char>)
    requires AllWhitespace(a) && AllWhitespace(b)
    ensures AllWhitespace(a + b)
  {
    forall i | 0 <= i < |a + b| ensures IsJsWhitespace((a + b)[i]) {
      if i >= |a| {
        assert (a + b)[i] == b[i - |a|];
      }
    }
  }

  /** Trimming only the end keeps at least what the whole `trim()` keeps. */
  lemma TrimWithinTrimEnd(s: seq<char>)
    ensures |Trim(s)| <= |TrimEnd(s)|
  {
    var e := |s| - TrailingUpTo(s, |s|);
    if e > 0 {
      TrimKeepsCore(s[..e - 1], [s[e - 1]], s[e..]);
      assert s[..e - 1] + [s[e - 1]] + s[e..] == s;
    }
  }

  /** `s.replace(/[...]/g, '')` for a character class: keeps, in order, exactly the
      characters satisfying `keep`. */
  function Filter(keep: char -> bool, s: seq<char>): (r: seq<char>)
    ensures |r| <= |s|
    ensures forall i | 0 <= i < |r| :: keep(r[i])
    ensures (forall i | 0 <= i < |s| :: keep(s[i])) ==> r == s
    ensures (forall i | 0 <= i < |s| :: !keep(s[i])) ==> r == []
  {
    if s == [] then []
    else if keep(s[0]) then [s[0]] + Filter(keep, s[1..])
    else Filter(keep, s[1..])
  }

  /** Filtering distributes over concatenation, so it never reorders characters. */
  lemma {:induction false} FilterConcat(keep: char -> bool, a: seq<char>, b: seq<char>)
    ensures Filter(keep, a + b) == Filter(keep, a) + Filter(keep, b)
  {
    if a == [] {
      assert a + b == b;
    } else {
      assert (a + b)[0] == a[0];
      assert (a + b)[1..] == a[1..] + b;
      FilterConcat(keep, a[1..], b);
    }
  }

  /** Appending one element leaves the slices around an inner position as they were, the tail one extended. */
  lemma SlicesOfAppend<T>(p: seq<T>, x: T, i: nat)
    requires i < |p|
    ensures (p + [x])[..i] == p[..i]
    ensures (p + [x])[i + 1..] == p[i + 1..] + [x]
  {
  }

  lemma ConcatAssoc<T>(a: seq<T>, b: seq<T>, c: seq<T>)
    ensures a + (b + c) == a + b + c
  {
  }

  /** A template literal's text: the concatenation of its pieces in order. */
  function Join(parts: seq<string>): string {
    if parts == [] then [] else parts[0] + Join(parts[1..])
  }

  /** A join starts with the first character of its first piece. */
  lemma JoinStarts(parts: seq<string>)
    requires parts != [] && parts[0] != []
    ensures Join(parts) != [] && Join(parts)[0] == parts[0][0]
  {
  }

  /** A join ends with the last character of its last piece. */
  lemma {:induction false} JoinEnds(parts: seq<string>)
    requires parts != [] && parts[|parts| - 1] != []
    ensures Join(parts) != []
    ensures Join(parts)[|Join(parts)| - 1] == parts[|parts| - 1][|parts[|parts| - 1]| - 1]
  {
    if |parts| > 1 {
      JoinEnds(parts[1..]);
    }
  }

  /** `substring(0, n)` for n >= 0: the first n characters, or the whole string when
      it is shorter. */
  function Take(s: seq<char>, n: nat): (r: seq<char>)
    ensures |r| == if |s| < n then |s| else n
    ensures r == s[..|r|]
  {
    if |s| <= n then s else s[..n]
  }

  function DigitChar(d: nat): (c: char)
    requires d < 10
    ensures IsAsciiDigit(c)
  {
    ('0' as int + d) as char
  }

  /** `String(n)` for a non-negative integer: decimal digits, no leading zero. */
  function NatToDecimal(n: nat): (r: seq<char>)
    ensures r != []
    ensures forall i | 0 <= i < |r| :: IsAsciiDigit(r[i])
    ensures |r| > 1 ==> r[0] != '0'
    decreases n
  {
    if n < 10 then [DigitChar(n)] else NatToDecimal(n / 10) + [DigitChar(n % 10)]
  }

  /** The value of a string of decimal digits, the reading that inverts NatToDecimal. */
  function DecimalValue(s: seq<char>): nat
    requires forall i | 0 <= i < |s| :: IsAsciiDigit(s[i])
  {
    if s == [] then 0
    else
      assert IsAsciiDigit(s[|s| - 1]);
      DecimalValue(s[..|s| - 1]) * 10 + (s[|s| - 1] as int - '0' as int)
  }

  /** Reading back the rendered count gives the count. */
  lemma {:induction false} DecimalRoundTrip(n: nat)
    ensures DecimalValue(NatToDecimal(n)) == n
    decreases n
  {
    if n >= 10 {
      var r := NatToDecimal(n);
      assert r[..|r| - 1] == NatToDecimal(n / 10);
      DecimalRoundTrip(n / 10);
    }
  }
}

=== FILE: testimonials.dfy ===
/** The carousel of `src/components/sections/Testimonials.jsx`: the current index moved
    by the next and previous buttons and set by the dots, and the preview grid of the
    first testimonials with their quotes cut short. */
module Testimonials {
  import opened JsText

  datatype Testimonial = Testimonial(name: string, role: string, company: string, rating: nat, text: string, course: string)

  /** JavaScript's `%`: the remainder takes the sign of the dividend (Dafny's `%` is
      Euclidean and never negative). */
  function JsRemainder(a: int, n: int): (r: int)
    requires n > 0
    ensures a >= 0 ==> r == a % n
    ensures a < 0 ==> -n < r <= 0
  {
    if a >= 0 then a % n else -((-a) % n)
  }

  /** `(prev + 1) % testimonials.length`: one step forward, from the last back to the
      first. */
  function Next(i: int, n: int): (r: int)
    requires 0 <= i < n
    ensures 0 <= r < n
    ensures r == if i == n - 1 then 0 else i + 1
  {
    JsRemainder(i + 1, n)
  }

  /** `(prev - 1 + testimonials.length) % testimonials.length`: one step back, from the
      first to the last. */
  function Prev(i: int, n: int): (r: int)
    requires 0 <= i < n
    ensures 0 <= r < n
    ensures r == if i == 0 then n - 1 else i - 1
  {
    JsRemainder(i - 1 + n, n)
  }

  /** The buttons undo each other. */
  lemma PrevUndoesNext(i: int, n: int)
    requires 0 <= i < n
    ensures Prev(Next(i, n), n) == i
    ensures Next(Prev(i, n), n) == i
  {
  }

  /** The index after pressing next `k` times. */
  function NextTimes(i: int, n: int, k: nat): (r: int)
    requires 0 <= i < n
    ensures 0 <= r < n
  {
    if k == 0 then i else Next(NextTimes(i, n, k - 1), n)
  }

  /** Within one round, pressing next `k` times moves the index `k` places round the
      circle, wrapping once past the last testimonial. */
  lemma {:induction false} NextTimesWraps(i: int, n: int, k: nat)
    requires 0 <= i < n && k <= n
    ensures NextTimes(i, n, k) == if i + k < n then i + k else i + k - n
  {
    if k > 0 {
      NextTimesWraps(i, n, k - 1);
    }
  }

  /** A full round of next presses comes back to the starting testimonial. */
  lemma FullRoundReturns(i: int, n: int)
    requires 0 <= i < n
    ensures NextTimes(i, n, n) == i
  {
    NextTimesWraps(i, n, n);
  }

  /** `setCurrentIndex(index)` on the dot at `index`. */
  function SelectDot(index: nat, n: nat): (r: nat)
    requires index < n
    ensures r < n
  {
    index
  }

  /** `index === currentIndex`: the dot drawn as active. */
  predicate DotActive(index: nat, current: int) {
    index == current
  }

  /** After clicking a dot, it is the one active dot. */
  lemma ClickedDotIsActive(k: nat, n: nat)
    requires k < n
    ensures forall d | 0 <= d < n :: DotActive(d, SelectDot(k, n)) <==> d == k
  {
  }

  // ---------------------------------------------------------------- preview grid

  const PreviewCount := 3
  const QuoteLength := 100
  const Ellipsis := "..."

  datatype PreviewCard = PreviewCard(name: string, quote: string)

  /** The quote text of a preview card: `substring(0, 100)` followed by "...". The
      ellipsis is added whatever the length, so a quote of 100 or fewer characters is
      shown whole and still gets it. The typographic quote marks the card draws around
      it are not part of the modelled quote. */
  function PreviewQuote(text: string): (r: string)
    ensures |r| == (if |text| < QuoteLength then |text| else QuoteLength) + |Ellipsis|
    ensures r[|r| - |Ellipsis|..] == Ellipsis
    ensures r[..|r| - |Ellipsis|] == text[..|r| - |Ellipsis|]
    ensures |text| <= QuoteLength ==> r[..|r| - |Ellipsis|] == text
  {
    Take(text, QuoteLength) + Ellipsis
  }

  /** `testimonials.slice(0, 3)` rendered as cards. */
  function Preview(ts: seq<Testimonial>): (r: seq<PreviewCard>)
    ensures |r| == if |ts| < PreviewCount then |ts| else PreviewCount
    ensures forall k | 0 <= k < |r| :: r[k].name == ts[k].name && r[k].quote == PreviewQuote(ts[k].text)
  {
    var shown := if |ts| <= PreviewCount then ts else ts[..PreviewCount];
    seq(|shown|, k requires 0 <= k < |shown| => PreviewCard(shown[k].name, PreviewQuote(shown[k].text)))
  }

  /** The five testimonials the site shows, in order. */
  const SiteTestimonials := [
    Testimonial("Priya Singh", "Software Engineer", "Google", 5,
      "WCC Labs transformed my career completely. The MERN Stack course was comprehensive and the instructors were amazing. I landed my dream job at Google within 2 months of graduation!",
      "MERN Stack Development"),
    Testimonial("Amit Kumar", "Data Scientist", "Microsoft", 5,
      "The Data Science course exceeded my expectations. Real-world projects and industry mentorship made all the difference. The placement support was excellent.",
      "Data Science & ML"),
    Testimonial("Sneha Patel", "Full Stack Developer", "Amazon", 5,
      "Best decision I made was joining TechEdu. The curriculum is up-to-date, instructors are supportive, and the placement assistance is top-notch. Highly recommended!",
      "Java Full Stack"),
    Testimonial("Rohit Sharma", "Cloud Engineer", "Meta", 5,
      "The Cloud Computing course prepared me well for the industry. Hands-on labs and real AWS projects gave me the confidence to crack interviews at top companies.",
      "Cloud Computing (AWS)"),
    Testimonial("Anita Verma", "Digital Marketing Manager", "Flipkart", 5,
      "The Digital Marketing course was comprehensive and practical. I learned everything from SEO to paid advertising. The job placement was quick and efficient.",
      "Digital Marketing")]

  /** On the site's list the carousel cycles through five, the back button on the
      first goes to the fifth, and the grid shows the first three with every quote cut
      to 100 characters plus the ellipsis. */
  lemma SiteCarousel()
    ensures |SiteTestimonials| == 5
    ensures Prev(0, |SiteTestimonials|) == 4 && Next(4, |SiteTestimonials|) == 0
    ensures |Preview(SiteTestimonials)| == 3
    ensures forall k | 0 <= k < 3 :: |Preview(SiteTestimonials)[k].quote| == QuoteLength + |Ellipsis|
  {
  }
}

=== FILE: validation.dfy ===
/** The shared field rules of `src/utils/emailService.js`: `validateField` for the four
    canonical fields (name, email, phone, message) and `validateForm`, which folds them
    over a contact form. A rule returns None for a valid value and Some(message) with
    the exact user-facing text otherwise. */
module Validation {
  import opened Wrappers
  import opened JsText

  /** The reasons a rule rejects a value. Text() is the exact message the user sees. */
  datatype FieldError =
    | NameRequired | NameTooShort | NameInvalid
    | EmailRequired | EmailInvalid
    | PhoneRequired | PhoneInvalid
    | MessageRequired | MessageTooShort | MessageTooLong
  {
    function Text(): string {
      match this
      case NameRequired => "Name is required"
      case NameTooShort => "Name must be at least 2 characters"
      case NameInvalid => "Name can only contain letters and spaces"
      case EmailRequired => "Email is required"
      case EmailInvalid => "Please enter a valid email address"
      case PhoneRequired => "Phone number is required"
      case PhoneInvalid => "Please enter a valid phone number (10-15 digits)"
      case MessageRequired => "Message is required"
      case MessageTooShort => "Message must be at least 10 characters"
      case MessageTooLong => "Message must be less than 1000 characters"
    }
  }

  const MinNameLength := 2
  const MinMessageLength := 10
  const MaxMessageLength := 1000
  const MinPhoneDigits := 10
  const MaxPhoneDigits := 15

  // ---------------------------------------------------------------- name

  /** The class `[a-zA-Z\s.]` of the name pattern. */
  predicate IsNameChar(c: char) {
    IsAsciiLetter(c) || IsJsWhitespace(c) || c == '.'
  }

  /** `/^[a-zA-Z\s.]+$/.test(value)`, on the untrimmed value. */
  predicate NamePatternMatches(s: seq<char>) {
    |s| > 0 && forall i | 0 <= i < |s| :: IsNameChar(s[i])
  }

  /** The `name` rule: blank, then too short after trimming, then a character outside
      the pattern; each check only runs when the ones before it passed. */
  function ValidateName(value: seq<char>): (r: Option<FieldError>)
    ensures r == None <==>
              |Trim(value)| >= MinNameLength && forall i | 0 <= i < |value| :: IsNameChar(value[i])
    ensures r == Some(NameRequired) <==> AllWhitespace(value)
    ensures r == Some(NameTooShort) <==> !AllWhitespace(value) && |Trim(value)| < MinNameLength
    ensures r.Some? ==> r.value in {NameRequired, NameTooShort, NameInvalid}
  {
    if IsBlank(value) then Some(NameRequired)
    else if |Trim(value)| < MinNameLength then Some(NameTooShort)
    else if !NamePatternMatches(value) then Some(NameInvalid)
    else None
  }

  // ---------------------------------------------------------------- email

  /** The class `[^\s@]` of the email pattern. */
  predicate IsEmailChar(c: char) {
    !IsJsWhitespace(c) && c != '@'
  }

  /** What `/^[^\s@]+@[^\s@]+\.[^\s@]+$/` accepts, stated by positions: an '@' at index
      i and a '.' at index j with at least one character before i, between i and j and
      after j, and every character other than that '@' in `[^\s@]` (the '.' is in the
      class too, so the middle and last runs may hold further dots). */
  ghost predicate EmailPatternMatches(s: seq<char>) {
    exists i, j | 0 < i && i + 1 < j && j + 1 < |s| ::
      s[i] == '@' && s[j] == '.' && forall k | 0 <= k < |s| && k != i :: IsEmailChar(s[k])
  }

  /** The states of a left-to-right scan recognising the email pattern. */
  datatype EmailScan =
    | Start    // nothing read
    | Local    // one or more characters of the part before '@'
    | AtSign   // the '@' was just read
    | Domain   // one or more characters after '@', no usable '.' yet
    | Dot      // a '.' after at least one domain character was just read
    | Accept   // a '.' with characters on both sides has been read
    | Reject   // no continuation can match

  function EmailStep(st: EmailScan, c: char): EmailScan {
    if IsJsWhitespace(c) then Reject
    else match st
      case Start => if c == '@' then Reject else Local
      case Local => if c == '@' then AtSign else Local
      case AtSign => if c == '@' then Reject else Domain
      case Domain => if c == '@' then Reject else if c == '.' then Dot else Domain
      case Dot => if c == '@' then Reject else Accept
      case Accept => if c == '@' then Reject else Accept
      case Reject => Reject
  }

  function ScanEmail(s: seq<char>): EmailScan {
    if s == [] then Start else EmailStep(ScanEmail(s[..|s| - 1]), s[|s| - 1])
  }

  /** The scan's verdict is the pattern's: the two agree on every string. */
  predicate EmailMatches(s: seq<char>) {
    ScanEmail(s) == Accept
  }

  /** The `email` rule: blank first, then the pattern on the UNtrimmed value, so that
      surrounding whitespace makes an otherwise good address invalid. */
  function ValidateEmail(value: seq<char>): (r: Option<FieldError>)
    ensures r == None <==> EmailPatternMatches(value)
    ensures r == Some(EmailRequired) <==> AllWhitespace(value)
    ensures r.Some? ==> r.value in {EmailRequired, EmailInvalid}
  {
    ScanMatchesPattern(value);
    if IsBlank(value) then Some(EmailRequired)
    else if !EmailMatches(value) then Some(EmailInvalid)
    else None
  }

  /** Index of the first '@', or |s| when there is none. */
  function FirstAt(s: seq<char>): (r: nat)
    ensures r <= |s|
    ensures forall k | 0 <= k < r :: s[k] != '@'
    ensures r < |s| ==> s[r] == '@'
  {
    if s == [] then 0 else if s[0] == '@' then 0 else 1 + FirstAt(s[1..])
  }

  ghost predicate AllEmailChars(s: seq<char>) {
    forall k | 0 <= k < |s| :: IsEmailChar(s[k])
  }

  /** The domain part so far holds a '.' with at least one character on each side. */
  ghost predicate HasSeparator(d: seq<char>) {
    exists j | 0 < j < |d| - 1 :: d[j] == '.'
  }

  /** What each scan state means about the prefix read so far. */
  ghost function Classify(p: seq<char>): EmailScan {
    if p == [] then Start
    else if AllEmailChars(p) then Local
    else
      var i := FirstAt(p);
      if 0 < i < |p| && AllEmailChars(p[..i]) && AllEmailChars(p[i + 1..]) then DomainState(p[i + 1..])
      else Reject
  }

  /** What the scan state means once the domain part `d` after the '@' has been read. */
  ghost function DomainState(d: seq<char>): EmailScan {
    if d == [] then AtSign
    else if HasSeparator(d) then Accept
    else if |d| >= 2 && d[|d| - 1] == '.' then Dot
    else Domain
  }

  lemma DomainStateIsPastAt(d: seq<char>)
    ensures DomainState(d) != Start && DomainState(d) != Local
  {
  }

  /** One step inside the domain part. */
  lemma DomainStep(d: seq<char>, c: char)
    requires IsEmailChar(c)
    ensures DomainState(d + [c]) == EmailStep(DomainState(d), c)
  {
    if d != [] {
      HasSeparatorAppend(d, c);
    } else {
      assert d + [c] == [c];
      assert !HasSeparator([c]);
    }
  }

  lemma {:induction false} FirstAtAppend(p: seq<char>, c: char)
    ensures FirstAt(p + [c]) == if FirstAt(p) < |p| then FirstAt(p) else if c == '@' then |p| else |p| + 1
  {
    if p != [] && p[0] != '@' {
      assert (p + [c])[1..] == p[1..] + [c];
      FirstAtAppend(p[1..], c);
    }
  }

  lemma AllEmailCharsAppend(p: seq<char>, c: char)
    ensures AllEmailChars(p + [c]) <==> AllEmailChars(p) && IsEmailChar(c)
  {
    assert forall k | 0 <= k < |p| :: (p + [c])[k] == p[k];
    assert (p + [c])[|p|] == c;
  }

  lemma HasSeparatorAppend(d: seq<char>, c: char)
    requires d != []
    ensures HasSeparator(d + [c]) <==> HasSeparator(d) || (|d| >= 2 && d[|d| - 1] == '.')
  {
    var e := d + [c];
    assert forall k | 0 <= k < |d| :: e[k] == d[k];
    if |d| >= 2 && d[|d| - 1] == '.' {
      assert e[|d| - 1] == '.';
    }
    if HasSeparator(e) {
      var j :| 0 < j < |e| - 1 && e[j] == '.';
      if j < |d| - 1 {
        assert d[j] == '.';
      }
    }
  }

  /** One step of the scan moves between the meanings of its states. */
  lemma ClassifyStep(p: seq<char>, c: char)
    ensures Classify(p + [c]) == EmailStep(Classify(p), c)
  {
    if FirstAt(p) < |p| {
      ClassifyStepAfterAt(p, c);
    } else if c == '@' {
      ClassifyStepAt(p, c);
    } else {
      ClassifyStepBeforeAt(p, c);
    }
  }

  /** A step after the '@' has been read: the domain part grows. */
  lemma ClassifyStepAfterAt(p: seq<char>, c: char)
    requires FirstAt(p) < |p|
    ensures Classify(p + [c]) == EmailStep(Classify(p), c)
  {
    var i := FirstAt(p);
    var d := p[i + 1..];
    ClassifyAfterAt(p);
    ClassifyAfterAtAppend(p, c);
    AllEmailCharsAppend(d, c);
    StepFromShapes(Classify(p), Classify(p + [c]), 0 < i && AllEmailChars(p[..i]), AllEmailChars(d), AllEmailChars(d + [c]), d, c);
  }

  /** Appending after the '@' keeps the local part and extends the domain part. */
  lemma ClassifyAfterAtAppend(p: seq<char>, c: char)
    requires FirstAt(p) < |p|
    ensures var i := FirstAt(p);
            Classify(p + [c]) ==
              if 0 < i && AllEmailChars(p[..i]) && AllEmailChars(p[i + 1..] + [c]) then DomainState(p[i + 1..] + [c]) else Reject
  {
    var q := p + [c];
    var i := FirstAt(p);
    FirstAtAppend(p, c);
    SlicesOfAppend(p, c, i);
    ClassifyFromParts(q, i, p[..i], p[i + 1..] + [c]);
  }

  /** The step after the '@', in terms of the parts' properties alone. */
  lemma StepFromShapes(sp: EmailScan, sq: EmailScan, ok: bool, ad: bool, adc: bool, d: seq<char>, c: char)
    requires sp == if ok && ad then DomainState(d) else Reject
    requires sq == if ok && adc then DomainState(d + [c]) else Reject
    requires adc <==> ad && IsEmailChar(c)
    ensures sq == EmailStep(sp, c)
  {
    if !IsEmailChar(c) {
      DomainStateIsPastAt(d);
    } else if ok && ad {
      DomainStep(d, c);
    }
  }

  /** Past the first '@', the state is decided by the two parts around it. */
  lemma ClassifyAfterAt(p: seq<char>)
    requires FirstAt(p) < |p|
    ensures var i := FirstAt(p);
            Classify(p) == if 0 < i && AllEmailChars(p[..i]) && AllEmailChars(p[i + 1..]) then DomainState(p[i + 1..]) else Reject
  {
    assert !AllEmailChars(p) by {
      assert p[FirstAt(p)] == '@';
    }
  }

  /** ClassifyAfterAt with the two parts named by the caller. */
  lemma ClassifyFromParts(p: seq<char>, i: nat, local: seq<char>, domain: seq<char>)
    requires i < |p| && FirstAt(p) == i
    requires local == p[..i] && domain == p[i + 1..]
    ensures Classify(p) == if 0 < i && AllEmailChars(local) && AllEmailChars(domain) then DomainState(domain) else Reject
  {
    ClassifyAfterAt(p);
  }

  /** The step that reads the first '@'. */
  lemma ClassifyStepAt(p: seq<char>, c: char)
    requires FirstAt(p) == |p| && c == '@'
    ensures Classify(p + [c]) == EmailStep(Classify(p), c)
  {
    var q := p + [c];
    assert Classify(q) == if p != [] && AllEmailChars(p) then AtSign else Reject by {
      FirstAtAppend(p, c);
      assert q[..|p|] == p;
      assert q[|p| + 1..] == [];
      ClassifyFromParts(q, |p|, p, []);
    }
    assert Classify(p) == if p == [] then Start else if AllEmailChars(p) then Local else Reject by {
      assert !(FirstAt(p) < |p|);
    }
    AtStepFromShapes(Classify(p), Classify(q), p == [], AllEmailChars(p));
  }

  /** The step that reads '@', in terms of whether the local part is empty and clean. */
  lemma AtStepFromShapes(sp: EmailScan, sq: EmailScan, empty: bool, clean: bool)
    requires sp == if empty then Start else if clean then Local else Reject
    requires sq == if !empty && clean then AtSign else Reject
    ensures sq == EmailStep(sp, '@')
  {
  }

  /** A step in the local part, before any '@'. */
  lemma ClassifyStepBeforeAt(p: seq<char>, c: char)
    requires FirstAt(p) == |p| && c != '@'
    ensures Classify(p + [c]) == EmailStep(Classify(p), c)
  {
    var q := p + [c];
    FirstAtAppend(p, c);
    AllEmailCharsAppend(p, c);
    assert FirstAt(q) == |q|;
  }

  /** The scan computes the meaning of its state on every prefix. */
  lemma {:induction false} ScanIsClassify(s: seq<char>)
    ensures ScanEmail(s) == Classify(s)
  {
    if s != [] {
      var p := s[..|s| - 1];
      ScanIsClassify(p);
      assert s == p + [s[|s| - 1]];
      ClassifyStep(p, s[|s| - 1]);
    }
  }

  /** The scan accepts exactly the strings the email pattern matches. */
  lemma ScanMatchesPattern(s: seq<char>)
    ensures EmailMatches(s) <==> EmailPatternMatches(s)
  {
    ScanIsClassify(s);
    if EmailPatternMatches(s) {
      var i, j :| 0 < i && i + 1 < j && j + 1 < |s| &&
        s[i] == '@' && s[j] == '.' && forall k | 0 <= k < |s| && k != i :: IsEmailChar(s[k]);
      assert !AllEmailChars(s) by {
        assert !IsEmailChar(s[i]);
      }
      assert FirstAt(s) == i;
      var d := s[i + 1..];
      assert AllEmailChars(s[..i]) by {
        forall k | 0 <= k < i ensures IsEmailChar(s[..i][k]) {
          assert s[..i][k] == s[k];
        }
      }
      assert AllEmailChars(d) by {
        forall k | 0 <= k < |d| ensures IsEmailChar(d[k]) {
          assert d[k] == s[i + 1 + k];
        }
      }
      assert d[j - i - 1] == '.';
      assert HasSeparator(d);
    }
    if Classify(s) == Accept {
      var i := FirstAt(s);
      var d := s[i + 1..];
      var j :| 0 < j < |d| - 1 && d[j] == '.';
      assert s[i + 1 + j] == '.';
      forall k | 0 <= k < |s| && k != i
        ensures IsEmailChar(s[k])
      {
        if k < i {
          assert s[..i][k] == s[k];
        } else {
          assert d[k - i - 1] == s[k];
        }
      }
    }
  }

  // ---------------------------------------------------------------- phone

  /** The class `[\s\-()+=]` that is stripped from a phone number. */
  predicate IsPhoneSeparator(c: char) {
    IsJsWhitespace(c) || c == '-' || c == '(' || c == ')' || c == '+' || c == '='
  }

  predicate IsPhoneKept(c: char) {
    !IsPhoneSeparator(c)
  }

  /** `value.replace(/[\s\-()+=]/g, '')`. */
  function CleanPhone(value: seq<char>): (r: seq<char>)
    ensures |r| <= |value|
    ensures forall i | 0 <= i < |r| :: !IsPhoneSeparator(r[i])
    ensures (forall i | 0 <= i < |value| :: !IsPhoneSeparator(value[i])) ==> r == value
  {
    Filter(IsPhoneKept, value)
  }

  /** `/^[0-9]{10,15}$/.test(cleanPhone)`. */
  predicate PhoneDigitsMatch(s: seq<char>) {
    MinPhoneDigits <= |s| <= MaxPhoneDigits && forall i | 0 <= i < |s| :: IsAsciiDigit(s[i])
  }

  /** Every character is a digit or one of the stripped separators. */
  predicate DigitsAndSeparators(s: seq<char>) {
    forall i | 0 <= i < |s| :: IsAsciiDigit(s[i]) || IsPhoneSeparator(s[i])
  }

  predicate AllDigits(s: seq<char>) {
    forall i | 0 <= i < |s| :: IsAsciiDigit(s[i])
  }

  /** The `phone` rule. Stated on the raw value, it accepts exactly the strings made of
      digits and separators that hold 10 to 15 digits. */
  function ValidatePhone(value: seq<char>): (r: Option<FieldError>)
    ensures r == None <==>
              DigitsAndSeparators(value) && MinPhoneDigits <= |Filter(IsAsciiDigit, value)| <= MaxPhoneDigits
    ensures r == Some(PhoneRequired) <==> AllWhitespace(value)
    ensures r.Some? ==> r.value in {PhoneRequired, PhoneInvalid}
  {
    CleanPhoneAllDigits(value);
    CleanPhoneIsDigits(value);
    if IsBlank(value) then Some(PhoneRequired)
    else if !PhoneDigitsMatch(CleanPhone(value)) then Some(PhoneInvalid)
    else None
  }

  /** Stripping the separators leaves only digits exactly when the value is digits and
      separators. */
  lemma {:induction false} CleanPhoneAllDigits(s: seq<char>)
    ensures AllDigits(CleanPhone(s)) <==> DigitsAndSeparators(s)
  {
    if s != [] {
      CleanPhoneAllDigits(s[1..]);
      var t := CleanPhone(s[1..]);
      assert DigitsAndSeparators(s) <==> (IsAsciiDigit(s[0]) || IsPhoneSeparator(s[0])) && DigitsAndSeparators(s[1..]) by {
        assert forall i | 0 <= i < |s[1..]| :: s[1..][i] == s[i + 1];
      }
      if IsPhoneKept(s[0]) {
        assert CleanPhone(s) == [s[0]] + t;
        assert AllDigits([s[0]] + t) <==> IsAsciiDigit(s[0]) && AllDigits(t) by {
          assert ([s[0]] + t)[0] == s[0];
          assert forall i | 0 <= i < |t| :: ([s[0]] + t)[i + 1] == t[i];
        }
      } else {
        assert CleanPhone(s) == t;
      }
    }
  }

  /** On a value of digits and separators, stripping the separators keeps its digits. */
  lemma {:induction false} CleanPhoneIsDigits(s: seq<char>)
    ensures DigitsAndSeparators(s) ==> CleanPhone(s) == Filter(IsAsciiDigit, s)
  {
    if s != [] && DigitsAndSeparators(s) {
      assert DigitsAndSeparators(s[1..]) by {
        assert forall i | 0 <= i < |s[1..]| :: s[1..][i] == s[i + 1];
      }
      CleanPhoneIsDigits(s[1..]);
      if IsAsciiDigit(s[0]) {
        AlnumIsNotWhitespace(s[0]);
        assert CleanPhone(s) == [s[0]] + CleanPhone(s[1..]);
        assert Filter(IsAsciiDigit, s) == [s[0]] + Filter(IsAsciiDigit, s[1..]);
      } else {
        assert !IsPhoneKept(s[0]);
        assert CleanPhone(s) == CleanPhone(s[1..]);
        assert Filter(IsAsciiDigit, s) == Filter(IsAsciiDigit, s[1..]);
      }
    }
  }

  // ---------------------------------------------------------------- message

  /** The `message` rule: blank, then too short, then too long, all on the trimmed
      length; 10 to 1000 trimmed characters inclusive pass. */
  function ValidateMessage(value: seq<char>): (r: Option<FieldError>)
    ensures r == None <==> MinMessageLength <= |Trim(value)| <= MaxMessageLength
    ensures r == Some(MessageRequired) <==> AllWhitespace(value)
    ensures r == Some(MessageTooShort) <==> !AllWhitespace(value) && |Trim(value)| < MinMessageLength
    ensures r == Some(MessageTooLong) <==> |Trim(value)| > MaxMessageLength
  {
    if IsBlank(value) then Some(MessageRequired)
    else if |Trim(value)| < MinMessageLength then Some(MessageTooShort)
    else if |Trim(value)| > MaxMessageLength then Some(MessageTooLong)
    else None
  }

  // ---------------------------------------------------------------- dispatch

  /** The four field names `validateField` has a rule for. */
  datatype CanonicalField = NameField | EmailField | PhoneField | MessageField {

    /** The property name the source uses for the field. */
    function Key(): string {
      match this
      case NameField => "name"
      case EmailField => "email"
      case PhoneField => "phone"
      case MessageField => "message"
    }
  }

  /** The order in which `validateForm` visits the fields. */
  const CanonicalFields: seq<CanonicalField> := [NameField, EmailField, PhoneField, MessageField]

  /** The `switch (fieldName)` of `validateField`: which rule a field name selects. */
  function FieldNamed(fieldName: string): (r: Option<CanonicalField>)
    ensures r.Some? ==> r.value.Key() == fieldName
    ensures r.None? ==> forall f: CanonicalField :: f.Key() != fieldName
  {
    if fieldName == "name" then Some(NameField)
    else if fieldName == "email" then Some(EmailField)
    else if fieldName == "phone" then Some(PhoneField)
    else if fieldName == "message" then Some(MessageField)
    else None
  }

  /** The rule of one canonical field. */
  function Rule(field: CanonicalField, value: seq<char>): Option<FieldError> {
    match field
    case NameField => ValidateName(value)
    case EmailField => ValidateEmail(value)
    case PhoneField => ValidatePhone(value)
    case MessageField => ValidateMessage(value)
  }

  /** `validateField(fieldName, value)`: the rule a canonical field name selects, and no
      error for any other name. */
  function ValidateField(fieldName: string, value: seq<char>): (r: Option<FieldError>)
    ensures (forall f: CanonicalField :: f.Key() != fieldName) ==> r == None
    ensures forall f: CanonicalField :: f.Key() == fieldName ==> r == Rule(f, value)
  {
    match FieldNamed(fieldName)
    case Some(f) => Rule(f, value)
    case None => None
  }

  // ---------------------------------------------------------------- whole form

  /** The payload `submitContactForm` receives. `course` is the empty string when the
      caller gives none (JavaScript treats '' and a missing value alike here). */
  datatype ContactForm = ContactForm(
    name: string,
    email: string,
    phone: string,
    course: string,
    message: string)

  /** `formData[field]` for a canonical field. */
  function FieldOf(form: ContactForm, field: CanonicalField): string {
    match field
    case NameField => form.name
    case EmailField => form.email
    case PhoneField => form.phone
    case MessageField => form.message
  }

  /** The result of `validateForm`; the error object's keys are the fields' Key()s. */
  datatype FormValidation = FormValidation(isValid: bool, errors: map<CanonicalField, FieldError>)

  /** The `forEach` of `validateForm` over a list of fields: an entry for each listed
      field whose rule reports an error, holding that error. */
  function CollectErrors(form: ContactForm, fields: seq<CanonicalField>): (errors: map<CanonicalField, FieldError>)
    ensures forall f | f in errors :: f in fields
    ensures forall f | f in fields ::
              (f in errors <==> Rule(f, FieldOf(form, f)).Some?) &&
              (f in errors ==> Rule(f, FieldOf(form, f)) == Some(errors[f]))
  {
    if fields == [] then map[]
    else
      var init := fields[..|fields| - 1];
      var before := CollectErrors(form, init);
      var f := fields[|fields| - 1];
      assert forall g | g in fields :: g in init || g == f;
      match Rule(f, FieldOf(form, f))
      case Some(m) => before[f := m]
      case None => before - {f}
  }

  /** `validateForm(formData)`: an error entry for exactly the canonical fields whose
      rule rejects the form's value, holding that rule's error, and valid exactly when
      there is no entry. */
  function ValidateForm(form: ContactForm): (r: FormValidation)
    ensures forall f: CanonicalField ::
              (f in r.errors <==> Rule(f, FieldOf(form, f)).Some?) &&
              (f in r.errors ==> Rule(f, FieldOf(form, f)) == Some(r.errors[f]))
    ensures r.isValid <==> r.errors == map[]
  {
    var errors := CollectErrors(form, CanonicalFields);
    AllCanonicalFieldsListed();
    FormValidation(|errors| == 0, errors)
  }

  lemma AllCanonicalFieldsListed()
    ensures forall f: CanonicalField :: f in CanonicalFields
  {
    forall f: CanonicalField ensures f in CanonicalFields {
      match f
      case NameField => assert CanonicalFields[0] == f;
      case EmailField => assert CanonicalFields[1] == f;
      case PhoneField => assert CanonicalFields[2] == f;
      case MessageField => assert CanonicalFields[3] == f;
    }
  }

  /** Each entry is what `validateField` reports for the field's own key, as the
      source's `forEach` computes it. */
  lemma ValidateFormUsesValidateField(form: ContactForm, f: CanonicalField)
    ensures f in ValidateForm(form).errors <==> ValidateField(f.Key(), FieldOf(form, f)).Some?
    ensures f in ValidateForm(form).errors ==> ValidateField(f.Key(), FieldOf(form, f)) == Some(ValidateForm(form).errors[f])
  {
    assert ValidateField(f.Key(), FieldOf(form, f)) == Rule(f, FieldOf(form, f));
  }

  /** A form whose name, email, phone and message each pass their rule is valid,
      whatever its course. */
  lemma PassingFieldsLeaveNoErrors(form: ContactForm)
    requires Rule(NameField, form.name).None? && Rule(EmailField, form.email).None?
    requires Rule(PhoneField, form.phone).None? && Rule(MessageField, form.message).None?
    ensures ValidateForm(form).isValid
  {
    var r := ValidateForm(form);
    forall f: CanonicalField ensures f !in r.errors {
      match f
      case NameField =>
      case EmailField =>
      case PhoneField =>
      case MessageField =>
    }
    assert r.errors.Keys == {};
  }

  /** A field whose rule fails is reported under its own key, so the form is not
      valid. */
  lemma FailingFieldIsReported(form: ContactForm)
    ensures ValidateName(form.name).Some? ==> NameField in ValidateForm(form).errors
    ensures ValidateEmail(form.email).Some? ==> EmailField in ValidateForm(form).errors
    ensures ValidatePhone(form.phone).Some? ==> PhoneField in ValidateForm(form).errors
    ensures ValidateMessage(form.message).Some? ==> MessageField in ValidateForm(form).errors
  {
    assert FieldOf(form, NameField) == form.name;
    assert FieldOf(form, EmailField) == form.email;
    assert FieldOf(form, PhoneField) == form.phone;
    assert FieldOf(form, MessageField) == form.message;
  }
}

=== FILE: wrappers.dfy ===
/** The optional value used wherever the source returns `null` or leaves a property
    out (a validator with nothing to report, a price that is not given). */
module Wrappers {

  datatype Option<+T> = None | Some(value: T) {

    /** Returns the value held in Some, or the given default for None. */
    function GetOr(default: T): T {
      match this
      case Some(v) => v
      case None => default
    }
  }
}
